=== FILE: README.md ===
# py_rfc_email in Dafny

py_rfc_email composes e-mails on top of Python's `email` package. It has two classes:

- **`Part`** is one node of the MIME tree. Its constructor does different things depending on which of six part kinds it is given:
  - it sets the Content-Type;
  - it picks a transfer encoding and charset, or a base64 payload;
  - for the four attachment-like kinds, it demands a filename and adds a `Content-ID` and a `Content-Disposition` with that filename.
- **`Message`** is the composer. It collects bodies, body-related parts, attachments, To/cc/bcc recipients, a sender, a Reply-To address, a subject and additional headers. On request it builds the tree:
  1. The bodies go under `multipart/alternative`.
  2. Body-related parts are added under `multipart/related`.
  3. Attachments are added under `multipart/mixed`.
  4. The envelope headers are written into the root in a fixed order.

The project has these modules:

| file | module | what it holds |
|---|---|---|
| `wrappers.dfy` | `Wrappers` | `Option`, `Result`, `Outcome`, and `Error`, which stands for Python's `TypeError`/`ValueError` with their messages |
| `text.dfy` | `Text` | the string primitives the code relies on: `str.strip()` with Python's whitespace set, ASCII `upper()`/`lower()`, decimal formatting and `", ".join` |
| `fields.dfy` | `Fields` | the header list that `email.message.Message` keeps: fields are appended, never replaced, names compare without case, and `del` drops every field of a name |
| `part.dfy` | `MimePart` | the class `Part` and the header list its constructor produces |
| `message_rules.dfy` | `MessageRules` | the pure rules of the composer: de-duplicating lists, the first-write-wins header dictionary, the subject-encoding character class, and the fields `_apply_headers` appends |
| `composer.dfy` | `Composer` | the class `Message`: adders, setters, queries, tree assembly and header application |

`Part` and `Message` are classes.
- Part's kind, MIME type, content id and payload are set once. They are `const`.
- Part's header list and children, and every list of `Message`, are fields that the methods reassign. Each method's `modifies` clause names the fields it changes.
- Python's exceptions are modelled as `Result`/`Outcome` values carrying the same messages.
- The raising constructor of `Part` is `Part.Create`.
- The plain constructor of `Part` requires arguments that do not raise.

These are parameters of the model:
- `id(self)` is the `identity` argument of `Part.Create`.
- `email.utils.parseaddr(address)[1]` is `addrSpec`, a constant function given to the `Message` constructor.
- The formatted current time is the `date` argument of `PopulateMessage` and `ApplyHeaders`.

The base64 and quoted-printable encoders and `email.header.Header` are symbolic constructors: `Base64Of`, `QuotedPrintableOf` and `EncodedWord`.

## Model

| member | source | states |
|---|---|---|
| Text.Strip | src/dNG/data/rfc/email/message.py:307 | the stripped subject is the input with only a whitespace prefix and a whitespace suffix removed: a slice with blank ends outside it and no whitespace at either of its own ends |
| Text.StrippedIff | src/dNG/data/rfc/email/message.py:307 | `strip()` leaves a string unchanged exactly when it has no whitespace at either end |
| Text.StripBlankIff | src/dNG/data/rfc/email/message.py:230 | stripping leaves nothing exactly when every character is whitespace, so a whitespace-only subject counts as unset |
| Text.StripIdempotent | src/dNG/data/rfc/email/message.py:307 | stripping twice is stripping once |
| Text.UpperIdempotent | src/dNG/data/rfc/email/message.py:526 | upper-casing an upper-cased header name changes nothing |
| Text.Decimal | src/dNG/data/rfc/email/part.py:148 | `{0:d}` formatting yields a non-empty string of digits with no leading zero (a first `0` only for the number 0) |
| Text.DecimalRoundTrip | src/dNG/data/rfc/email/part.py:148 | reading the formatted digits back gives the number |
| Text.DecimalInjective | src/dNG/data/rfc/email/part.py:148 | distinct numbers format to distinct strings |
| Text.JoinCommaLayout | src/dNG/data/rfc/email/message.py:469 | the joined recipient string holds every recipient in order at its offset, with ", " before each one but the first, and its length is the sum of the recipients' lengths plus two per separator |
| Text.JoinCharactersLength | src/dNG/data/rfc/email/message.py:471 | joining the characters of a string with ", " makes it 3n-2 long |
| Fields.WithoutValues | src/dNG/data/rfc/email/part.py:128 | deleting a header name removes all its values and keeps every other name's values |
| MimePart.ConstructionError | src/dNG/data/rfc/email/part.py:105-146 | construction raises exactly when the MIME type does not hold exactly one "/" (`set_type`'s bare `ValueError`, checked first), when a non-multipart part has no `str`/`bytes` data, or when an attachment-like part has no `str` filename. The data error wins over the filename error, and empty data is accepted |
| MimePart.PayloadFor | src/dNG/data/rfc/email/part.py:108-135 | a payload exactly for non-multipart kinds, encoded from the given data; base64 exactly for the binary kinds |
| MimePart.ContentIdInjective | src/dNG/data/rfc/email/part.py:148 | parts with distinct identities get distinct content ids |
| MimePart.ContentTypeField | src/dNG/data/rfc/email/part.py:105-128 | every part has exactly one Content-Type, carrying its MIME type, with `charset=UTF-8` exactly for the text kinds |
| MimePart.TransferEncodingField | src/dNG/data/rfc/email/part.py:110-129 | `Content-Transfer-Encoding: quoted-printable` exactly for the text kinds, and none otherwise |
| MimePart.ContentIdField | src/dNG/data/rfc/email/part.py:148-149 | a `Content-ID: <cid>` header exactly for the attachment-like kinds |
| MimePart.DispositionFields | src/dNG/data/rfc/email/part.py:151-157 | the Content-Disposition values: `base64` for binary kinds, then the disposition type with the filename for attachment-like kinds. The type is `attachment` exactly for the two attachment kinds |
| MimePart.NoDateField | src/dNG/data/rfc/email/part.py:80-158 | a freshly constructed part carries no Date field |
| MimePart.BinaryDispositionQuirk | src/dNG/data/rfc/email/part.py:110-116 | a binary part has no transfer-encoding header and two Content-Disposition fields |
| MimePart.CharsetMovesContentType | src/dNG/data/rfc/email/part.py:128 | `set_param` deletes the Content-Type, so the transfer encoding moves up |
| MimePart.TextInlineFieldOrder | src/dNG/data/rfc/email/part.py:105-157 | a text inline part lists MIME-Version, Content-Transfer-Encoding, Content-Type, Content-ID, Content-Disposition, in that order |
| MimePart.Part.constructor | src/dNG/data/rfc/email/part.py:80-158 | on accepted arguments: the kind and MIME type as given, a content id exactly for the attachment-like kinds, the payload of `PayloadFor`, the construction header list, no children |
| MimePart.Part.SetType | src/dNG/data/rfc/email/part.py:105 | `set_type` on a new part writes MIME-Version and then Content-Type |
| MimePart.Part.SetEncoding | src/dNG/data/rfc/email/part.py:110-129 | after `set_type`: a binary part appends `Content-Disposition: base64`, a text part gets the quoted-printable transfer encoding and the charset, a multipart part is left as it is |
| MimePart.Part.SetQuotedPrintable | src/dNG/data/rfc/email/part.py:127-128 | the transfer encoding is appended, then `set_param` re-appends the Content-Type with `charset=UTF-8`, so the Content-Type ends up last |
| MimePart.Part.Tag | src/dNG/data/rfc/email/part.py:148-157 | an attachment-like part appends `Content-ID: <cid>` and then the disposition with the filename, `attachment` or `inline` by kind |
| MimePart.Part.AddHeader | src/dNG/data/rfc/email/part.py:115 | `add_header` appends one field |
| MimePart.Part.SetCharset | src/dNG/data/rfc/email/part.py:128 | `set_param` drops the Content-Type and appends it again with the charset |
| MimePart.Part.Create | src/dNG/data/rfc/email/part.py:80-158 | fails exactly with the error `ConstructionError` names, the `ValueError` for a malformed MIME type included; otherwise a fresh, valid part as the constructor describes |
| MimePart.Part.Container | src/dNG/data/rfc/email/message.py:145 | a multipart part built with a valid MIME type: fresh, no payload, the container header list and no children |
| MimePart.Part.GetContentId | src/dNG/data/rfc/email/part.py:161-171 | the content id is set exactly for the attachment-like kinds |
| MimePart.Part.GetPartType | src/dNG/data/rfc/email/part.py:173-182 | the kind given at construction, which decided whether there is a payload and a content id |
| MimePart.Part.Attach | src/dNG/data/rfc/email/message.py:146 | attaching appends the child, in order |
| MessageRules.Added | src/dNG/data/rfc/email/message.py:354 | adding keeps the old list as a prefix, grows it by at most one, makes the item present, and introduces no duplicate |
| MessageRules.AddedIdempotent | src/dNG/data/rfc/email/message.py:354 | adding the same item twice is adding it once |
| MessageRules.Remove | src/dNG/data/rfc/email/message.py:529 | `del` makes the key absent, leaves every other key's value, keeps the remaining entries in their order (a subsequence of the dictionary), and keeps keys unique |
| MessageRules.Update | src/dNG/data/rfc/email/message.py:516-531 | `None` deletes the key, keeping the other entries in order, and leaves the dictionary as it is when the key is absent. Any other value is appended as the last entry when the key is absent and changes nothing when it is present. Other keys are untouched and keys stay unique |
| MessageRules.FirstWriteWins | src/dNG/data/rfc/email/message.py:530 | a second write under the same name changes nothing |
| MessageRules.DeleteThenSet | src/dNG/data/rfc/email/message.py:528-530 | after deleting a name, the next write goes through |
| MessageRules.NeedsEncoding | src/dNG/data/rfc/email/message.py:476 | the regular expression matches exactly when some character of the subject is in the class |
| MessageRules.SubjectValue | src/dNG/data/rfc/email/message.py:475-478 | the value is either the subject verbatim or a UTF-8 encoded-word of the same text, and it is verbatim exactly when no character is in the class |
| MessageRules.UmlautSubjectEncoded | src/dNG/data/rfc/email/message.py:475-478 | a subject with ä, ö or ü anywhere becomes a UTF-8 encoded-word, as for the German-umlaut subject at unittest/test_rfc_email_message.py:97 |
| MessageRules.ToField | src/dNG/data/rfc/email/message.py:469 | exactly one To field: the recipients joined by ", ", or "undisclosed-recipients" |
| MessageRules.FromField | src/dNG/data/rfc/email/message.py:468 | a From field exactly when a sender is set |
| MessageRules.CcField | src/dNG/data/rfc/email/message.py:470 | a cc field exactly when there are cc recipients, holding all of them |
| MessageRules.ReplyToField | src/dNG/data/rfc/email/message.py:471 | a Reply-To field exactly when a reply address is set |
| MessageRules.DateField | src/dNG/data/rfc/email/message.py:473 | a Date field only when the part has none yet |
| MessageRules.SubjectField | src/dNG/data/rfc/email/message.py:475-478 | exactly one Subject field, holding the subject value |
| MessageRules.BccNeverWritten | src/dNG/data/rfc/email/message.py:459-481 | the written fields do not depend on the bcc recipients |
| MessageRules.ExtraFieldsWritten | src/dNG/data/rfc/email/message.py:480 | the additional headers come last, once each, in dictionary order |
| MessageRules.RepeatedApplication | src/dNG/data/rfc/email/message.py:509-510 | applying the headers twice to one part duplicates To and Subject but writes Date once |
| MessageRules.ReplyToInterleaves | src/dNG/data/rfc/email/message.py:471 | every Reply-To address of two or more characters is written altered |
| MessageRules.SubjectTrigger | src/dNG/data/rfc/email/message.py:476 | the class stops at 0x19, so space and 0x1A are outside it; it includes the period and Latin-1 characters |
| MessageRules.SubjectAboveLatin1 | src/dNG/data/rfc/email/message.py:476 | a subject made only of characters above 0xFF is written unencoded |
| MessageRules.AlphanumericSubjectVerbatim | src/dNG/data/rfc/email/message.py:476 | a subject of letters, digits and spaces is written verbatim |
| Composer.PlainMessageHeaders | src/dNG/data/rfc/email/message.py:459-481 | one body and only a subject give MIME-Version, Content-Transfer-Encoding, Content-Type, To, Date, Subject, in that order |
| Composer.Message.ValidateAddress | src/dNG/data/rfc/email/message.py:548-560 | an address is refused with `TypeError` exactly when no address can be parsed out of it |
| Composer.Message.constructor | src/dNG/data/rfc/email/message.py:49-103 | every list, address, the subject and the header dictionary start empty; there is no message |
| Composer.Message.AddBody | src/dNG/data/rfc/email/message.py:382-398 | refused with `TypeError` exactly for non-body parts; otherwise the part is added once, in order; nothing else changes |
| Composer.Message.AddAttachment | src/dNG/data/rfc/email/message.py:336-355 | refused exactly for kinds that are not attachment-like; otherwise the part is added once, in order |
| Composer.Message.AddBodyRelatedAttachment | src/dNG/data/rfc/email/message.py:400-419 | as for attachments, with its own error message |
| Composer.Message.AddTo | src/dNG/data/rfc/email/message.py:446-457 | a valid address is added once; an invalid one is refused and nothing changes |
| Composer.Message.AddCc | src/dNG/data/rfc/email/message.py:433-444 | as for To, on the cc list |
| Composer.Message.AddBcc | src/dNG/data/rfc/email/message.py:369-380 | as for To, on the bcc list |
| Composer.Message.SetTo | src/dNG/data/rfc/email/message.py:322-334 | the list becomes the address alone, or becomes empty when the address is refused with `TypeError("Given e-mail is not valid")` |
| Composer.Message.SetCc | src/dNG/data/rfc/email/message.py:171-183 | as for the To setter |
| Composer.Message.SetBcc | src/dNG/data/rfc/email/message.py:118-130 | as for the To setter |
| Composer.Message.SetSender | src/dNG/data/rfc/email/message.py:271-283 | a valid address replaces the sender; a refused one leaves it unchanged |
| Composer.Message.SetReplyTo | src/dNG/data/rfc/email/message.py:245-257 | a valid address replaces the reply address; a refused one leaves it unchanged |
| Composer.Message.SetSubject | src/dNG/data/rfc/email/message.py:297-308 | the subject is stored stripped, and is then set exactly when the input had a character other than whitespace |
| Composer.Message.SetHeader | src/dNG/data/rfc/email/message.py:516-531 | the dictionary update under the upper-cased name; names stay upper-case and unique |
| Composer.Message.IsSenderSet | src/dNG/data/rfc/email/message.py:185-195 | set exactly when the sender is non-empty, and then it is a valid address |
| Composer.Message.IsReplyToSet | src/dNG/data/rfc/email/message.py:209-219 | set exactly when the reply address is non-empty, and then it is a valid address |
| Composer.Message.IsRecipientSet | src/dNG/data/rfc/email/message.py:197-207 | true exactly when some address is in To, cc or bcc |
| Composer.Message.IsSubjectSet | src/dNG/data/rfc/email/message.py:221-231 | true exactly when the subject has a character other than whitespace |
| Composer.Message.ApplyHeaders | src/dNG/data/rfc/email/message.py:459-481 | the part's headers gain exactly the fields of `RootFields`, in order, after the ones it had |
| Composer.Message.WriteAddresses | src/dNG/data/rfc/email/message.py:468-471 | From, To, cc and Reply-To are appended as `AddressFields` lists them |
| Composer.Message.WriteAdditionalHeaders | src/dNG/data/rfc/email/message.py:480 | the additional headers are appended in dictionary order |
| Composer.Message.Body | src/dNG/data/rfc/email/message.py:132-157 | `ValueError` exactly without bodies. Otherwise the body tree: the single body itself, or fresh alternative and related containers holding the bodies and the related parts in order |
| Composer.Message.AlternativesRoot | src/dNG/data/rfc/email/message.py:144-147 | the only body part, or a fresh multipart/alternative container with the container headers holding every body part in order |
| Composer.Message.RelatedRoot | src/dNG/data/rfc/email/message.py:150-153 | a fresh multipart/related container with the container headers holding the alternatives and then every body-related part in order |
| Composer.ContainerTypes | src/dNG/data/rfc/email/message.py:145-151 | the three container types the composer uses pass `set_type`'s one-"/" check, so building a container never raises |
| Composer.Message.AddBodyToMultipart | src/dNG/data/rfc/email/message.py:421-431 | the body tree becomes the next child of the part, or `ValueError` without bodies |
| Composer.Message.AddAttachmentsToMultipart | src/dNG/data/rfc/email/message.py:357-367 | every attachment, in order, becomes a child of the part |
| Composer.Message.PopulateMessage | src/dNG/data/rfc/email/message.py:495-514 | the subject check comes before the body check. With attachments, a fresh multipart/mixed root with the envelope headers has the body tree and then the attachments as children; a body-tree container under it is fresh and carries only the container headers, not the envelope. Otherwise the body tree is the root and gains the envelope headers; that root is the caller's part exactly when there is one body and no body-related part, and fresh otherwise |
| Composer.Message.PopulateMixed | src/dNG/data/rfc/email/message.py:504-507 | with attachments the root is stored and given headers before a missing body is noticed; its first child is the body tree, and when that is a container it is fresh with only the container headers |
| Composer.Message.PopulateFromBody | src/dNG/data/rfc/email/message.py:508-510 | without attachments the body tree is the root: the caller's part exactly when there is one body and no body-related part, otherwise a fresh container; a single body part gets the headers appended to its own |

## Behaviour as written

The model keeps the following behaviour as the code has it, and states each point in a lemma:

- The subject character class runs from 0x00 to 0x19, not to 0x20. It includes the period. Characters above 0xFF never trigger an encoded-word. See `MessageRules.SubjectTrigger` and `MessageRules.SubjectAboveLatin1`.
- A binary part gets a `Content-Disposition: base64` field and no transfer-encoding header (part.py:115). See `MimePart.BinaryDispositionQuirk`.
- The Reply-To value is `", ".join` applied to the address string, which interleaves its characters (message.py:471). See `MessageRules.ReplyToInterleaves`.
- With a single body part, no body-related parts and no attachments, the envelope headers are appended to the caller's body part, and a rebuild appends every envelope header but Date a second time. In every other case the envelope headers go to a fresh part, either the multipart/mixed root (message.py:505) or the container `_body` builds (message.py:145, 151), and the caller's parts receive none. See `MessageRules.RepeatedApplication` and the `base` in the `PopulateFromBody` contract.
- With attachments and no body, `message` is already set to the mixed root, carrying headers, when the `ValueError` is raised. See `Composer.Message.PopulateMixed`.
- The `to`, `cc` and `bcc` setters clear the list before validating, so a refused address leaves the list empty. See `Composer.Message.SetTo`.
- A leaf part refuses a missing datum (`None`) and a datum that is neither `str` nor `bytes` (part.py:106, 113, 125); empty data makes a part. A multipart part ignores any data it is given. See `MimePart.ConstructionError`.

## Left out

- Serialisation (`as_string`, message.py:483-493) is left out: boundaries, header folding and the wire form belong to Python's `email` package.
- `format_address` (message.py:533-546) is left out: it only calls `email.utils.formataddr`.
- The encoders `b64encode`, `quopri.encodestring` and `email.header.Header` are symbolic constructors, and payload bytes are not computed. The str-to-bytes coercions and the Python 2/3 shims are not modelled.
- `parseaddr` is the parameter `addrSpec`. The clock and `Basics.get_rfc5322_datetime` are the parameter `date`. dNG.data.rfc.basics is not part of this model.
- The `isinstance(part, Part)` checks of the adders are not modelled: their argument is typed `Part`, so a non-`Part` argument cannot be expressed.
- The property getters (`to`, `cc`, `bcc`, `sender`, `reply_to`, `subject`) are the fields themselves.
- Text.Upper: maps only ASCII letters, while Python's `upper()` also maps other letters; only header names pass through it.
- Text.Lower: maps only ASCII letters, like Text.Upper; it is used to compare header names.
- MimePart.Part.Attach: requires a part without payload instead of modelling the library's error, because the composer attaches only to multipart parts it creates.
- MimePart.Part.SetCharset: MIME types are opaque strings whose parameters are not parsed. `set_param` rebuilds the parameter list of the existing Content-Type. When the type already carries a charset, it replaces that value. When the rebuilt value equals the current one, it changes nothing. Neither case is modelled: the model always deletes the Content-Type and appends it with `charset=UTF-8`. This matches the library for MIME types without a charset parameter.
- MimePart.Part.SetQuotedPrintable: the Content-Type moves behind the transfer encoding only for MIME types without a charset parameter, as explained for SetCharset. The field orders stated by `TypedFields`, the constructor, `TextInlineFieldOrder` and `Composer.PlainMessageHeaders` hold for such types.
- MimePart.Part.SetType: models `set_type` only on a new part, which is the only way the constructor calls it. Its MIME-type check is modelled as the first case of `ConstructionError`, which the constructor requires to be absent, rather than inside this method.
- Composer.Message.AddBody: reads the part's kind from `kind`. As written, message.py:394 reads `part.type`, which neither `Part` nor `email.message.Message` defines, so the source raises `AttributeError` for every part; the model follows the evident intent, `get_part_type()`.
- Composer.Message.AddAttachment: reads `kind` where message.py:346-349 reads the undefined `part.type` and so raises `AttributeError`, as for AddBody.
- Composer.Message.AddBodyRelatedAttachment: reads `kind` where message.py:410-413 reads the undefined `part.type` and so raises `AttributeError`, as for AddBody.
- Composer.Message.AddBody and the other adders, setters and queries require `Valid()`, the invariant the constructor establishes and every method keeps. Parts are compared by identity, as Python's `in` does for parts.

=== FILE: composer.dfy ===
/** The composer (`Message`, src/dNG/data/rfc/email/message.py): it collects body parts,
    body-related parts, attachments, addresses, a subject and additional headers, and on
    request builds the MIME tree of the message, writing the envelope headers into its root. */
module Composer {
  import opened Wrappers
  import opened Text
  import opened Fields
  import opened MimePart
  import opened MessageRules

  const NO_BODY := ValueError("No body has been defined")
  const NO_SUBJECT := ValueError("No subject defined for e-mail")
  const NOT_A_BODY := TypeError("Only parts of type message body can be added as body elements")
  const NOT_AN_ATTACHMENT := TypeError("Only parts of type attachment can be added as attachment elements")
  const NOT_A_RELATED := TypeError("Only parts of type attachment can be added as body related elements")
  const INVALID_ADDRESS := TypeError("Given e-mail is not valid")

  /** The container types are spelled as "multipart" + "/" + subtype so that the one "/"
      `set_type` demands is visible to the proof of `ContainerTypes`. */
  const MULTIPART := "multipart"
  const ALTERNATIVE := MULTIPART + "/" + "alternative"
  const RELATED := MULTIPART + "/" + "related"
  const MIXED := MULTIPART + "/" + "mixed"

  /** The containers the composer creates have types `set_type` accepts. */
  lemma ContainerTypes()
    ensures IsMimeType(ALTERNATIVE) && IsMimeType(RELATED) && IsMimeType(MIXED)
  {
    assert '/' !in MULTIPART;
    CountOne(MULTIPART, '/', "alternative");
    CountOne(MULTIPART, '/', "related");
    CountOne(MULTIPART, '/', "mixed");
  }

  /** The alternative representations of the body: the only body part itself, or a
      multipart/alternative container holding all of them in the order they were added. */
  predicate Alternatives(root: Part, bodies: seq<Part>)
    reads root
  {
    if |bodies| == 1 then root == bodies[0]
    else root.kind.Multipart? && root.mimeType == ALTERNATIVE && root.children == bodies
  }

  /** The body tree: the alternatives alone, or, when there are body-related parts, a
      multipart/related container holding the alternatives followed by those parts. */
  predicate BodyTree(root: Part, bodies: seq<Part>, related: seq<Part>)
    reads root, root.children
  {
    if related == [] then Alternatives(root, bodies)
    else
      && root.kind.Multipart? && root.mimeType == RELATED
      && |root.children| == |related| + 1 && root.children[1..] == related
      && Alternatives(root.children[0], bodies)
      && (|bodies| > 1 ==> root.children[0].headers == ContainerFields(ALTERNATIVE))
  }

  /** Header names unique and upper-case. */
  predicate HeaderNamesValid(d: HeaderDict) {
    UniqueKeys(d) && forall p :: p in d ==> Upper(p.0) == p.0
  }

  class Message {
    /** `parseaddr(address)[1]`: the bare address `email.utils.parseaddr` extracts, empty
        when it finds none. */
    const addrSpec: string -> string
    var attachments: seq<Part>
    var bodies: seq<Part>
    var related: seq<Part>
    /** Additional headers under upper-cased names. */
    var headers: HeaderDict
    /** The root part the last population built. */
    var message: Option<Part>
    var to: seq<string>
    var cc: seq<string>
    var bcc: seq<string>
    var replyTo: string
    var sender: string
    var subject: string

    /** An address `validate_address` accepts. */
    predicate IsValidAddress(address: string) {
      addrSpec(address) != ""
    }

    /** `validate_address(address)`: a `TypeError` when no address can be parsed out of it. */
    function ValidateAddress(address: string): (r: Outcome<Error>)
      ensures r.Pass? <==> IsValidAddress(address)
      ensures r.Fail? ==> r.error == INVALID_ADDRESS
    {
      if addrSpec(address) == "" then Fail(INVALID_ADDRESS) else Pass
    }

    /** Each body part once, all of the message-body kind. */
    predicate BodiesValid()
      reads this`bodies
    {
      NoDuplicates(bodies) && forall p :: p in bodies ==> p.kind.MessageBody?
    }

    /** Each attachment once, all of the attachment-like kinds. */
    predicate AttachmentsValid()
      reads this`attachments
    {
      NoDuplicates(attachments) && forall p :: p in attachments ==> p.kind.IsAttachmentLike()
    }

    /** Each body-related part once, all of the attachment-like kinds. */
    predicate RelatedValid()
      reads this`related
    {
      NoDuplicates(related) && forall p :: p in related ==> p.kind.IsAttachmentLike()
    }

    /** A recipient list: addresses that validated, each once. */
    predicate RecipientsValid(addresses: seq<string>) {
      NoDuplicates(addresses) && forall a :: a in addresses ==> IsValidAddress(a)
    }

    /** What the adders and setters keep true: each list holds parts of the kinds it accepts
        and addresses that validated, each only once; the subject is stripped; the header
        names are upper-case and unique. */
    predicate Valid()
      reads this
    {
      && BodiesValid() && AttachmentsValid() && RelatedValid()
      && RecipientsValid(to) && RecipientsValid(cc) && RecipientsValid(bcc)
      && (sender == "" || IsValidAddress(sender))
      && (replyTo == "" || IsValidAddress(replyTo))
      && IsStripped(subject)
      && HeaderNamesValid(headers)
    }

    /** `Message()`: everything empty; `addrSpec` stands for `parseaddr`. */
    constructor (addrSpec: string -> string)
      ensures Valid()
      ensures this.addrSpec == addrSpec
      ensures attachments == [] && bodies == [] && related == [] && headers == [] && message == None
      ensures to == [] && cc == [] && bcc == [] && replyTo == "" && sender == "" && subject == ""
    {
      this.addrSpec := addrSpec;
      attachments := [];
      bodies := [];
      related := [];
      headers := [];
      message := None;
      to := [];
      cc := [];
      bcc := [];
      replyTo := "";
      sender := "";
      subject := "";
    }

    /** `add_body(part)`: only message-body parts are accepted, each once. */
    method AddBody(part: Part) returns (r: Outcome<Error>)
      requires Valid()
      modifies this`bodies
      ensures Valid()
      ensures r.Fail? <==> !part.kind.MessageBody?
      ensures r.Fail? ==> r.error == NOT_A_BODY
      ensures bodies == if r.Pass? then Added(old(bodies), part) else old(bodies)
    {
      if !part.kind.MessageBody? {
        return Fail(NOT_A_BODY);
      }
      bodies := Added(bodies, part);
      return Pass;
    }

    /** `add_attachment(part)`: only the four attachment-like kinds are accepted, each once. */
    method AddAttachment(part: Part) returns (r: Outcome<Error>)
      requires Valid()
      modifies this`attachments
      ensures Valid()
      ensures r.Fail? <==> !part.kind.IsAttachmentLike()
      ensures r.Fail? ==> r.error == NOT_AN_ATTACHMENT
      ensures attachments == if r.Pass? then Added(old(attachments), part) else old(attachments)
    {
      if !part.kind.IsAttachmentLike() {
        return Fail(NOT_AN_ATTACHMENT);
      }
      attachments := Added(attachments, part);
      return Pass;
    }

    /** `add_body_related_attachment(part)`: the same kinds as attachments, each once. */
    method AddBodyRelatedAttachment(part: Part) returns (r: Outcome<Error>)
      requires Valid()
      modifies this`related
      ensures Valid()
      ensures r.Fail? <==> !part.kind.IsAttachmentLike()
      ensures r.Fail? ==> r.error == NOT_A_RELATED
      ensures related == if r.Pass? then Added(old(related), part) else old(related)
    {
      if !part.kind.IsAttachmentLike() {
        return Fail(NOT_A_RELATED);
      }
      related := Added(related, part);
      return Pass;
    }

    /** `add_to(address)`: a valid address is added once; an invalid one is refused. */
    method AddTo(address: string) returns (r: Outcome<Error>)
      requires Valid()
      modifies this`to
      ensures Valid()
      ensures r.Fail? <==> !IsValidAddress(address)
      ensures r.Fail? ==> r.error == INVALID_ADDRESS
      ensures to == if r.Pass? then Added(old(to), address) else old(to)
    {
      r := ValidateAddress(address);
      if r.Pass? {
        to := Added(to, address);
      }
    }

    /** `add_cc(address)`. */
    method AddCc(address: string) returns (r: Outcome<Error>)
      requires Valid()
      modifies this`cc
      ensures Valid()
      ensures r.Fail? <==> !IsValidAddress(address)
      ensures r.Fail? ==> r.error == INVALID_ADDRESS
      ensures cc == if r.Pass? then Added(old(cc), address) else old(cc)
    {
      r := ValidateAddress(address);
      if r.Pass? {
        cc := Added(cc, address);
      }
    }

    /** `add_bcc(address)`. */
    method AddBcc(address: string) returns (r: Outcome<Error>)
      requires Valid()
      modifies this`bcc
      ensures Valid()
      ensures r.Fail? <==> !IsValidAddress(address)
      ensures r.Fail? ==> r.error == INVALID_ADDRESS
      ensures bcc == if r.Pass? then Added(old(bcc), address) else old(bcc)
    {
      r := ValidateAddress(address);
      if r.Pass? {
        bcc := Added(bcc, address);
      }
    }

    /** The `to` setter: the list is cleared before the address is validated, so an invalid
        address leaves no recipient at all. */
    method SetTo(address: string) returns (r: Outcome<Error>)
      requires Valid()
      modifies this`to
      ensures Valid()
      ensures r.Fail? <==> !IsValidAddress(address)
      ensures r.Fail? ==> r.error == INVALID_ADDRESS
      ensures to == if r.Pass? then [address] else []
    {
      to := [];
      r := AddTo(address);
    }

    /** The `cc` setter, clearing first like the `to` setter. */
    method SetCc(address: string) returns (r: Outcome<Error>)
      requires Valid()
      modifies this`cc
      ensures Valid()
      ensures r.Fail? <==> !IsValidAddress(address)
      ensures r.Fail? ==> r.error == INVALID_ADDRESS
      ensures cc == if r.Pass? then [address] else []
    {
      cc := [];
      r := AddCc(address);
    }

    /** The `bcc` setter, clearing first like the `to` setter. */
    method SetBcc(address: string) returns (r: Outcome<Error>)
      requires Valid()
      modifies this`bcc
      ensures Valid()
      ensures r.Fail? <==> !IsValidAddress(address)
      ensures r.Fail? ==> r.error == INVALID_ADDRESS
      ensures bcc == if r.Pass? then [address] else []
    {
      bcc := [];
      r := AddBcc(address);
    }

    /** The `sender` setter: validated first, unchanged when refused. */
    method SetSender(address: string) returns (r: Outcome<Error>)
      requires Valid()
      modifies this`sender
      ensures Valid()
      ensures r.Fail? <==> !IsValidAddress(address)
      ensures r.Fail? ==> r.error == INVALID_ADDRESS
      ensures sender == if r.Pass? then address else old(sender)
    {
      r := ValidateAddress(address);
      if r.Pass? {
        sender := address;
      }
    }

    /** The `reply_to` setter: validated first, unchanged when refused. */
    method SetReplyTo(address: string) returns (r: Outcome<Error>)
      requires Valid()
      modifies this`replyTo
      ensures Valid()
      ensures r.Fail? <==> !IsValidAddress(address)
      ensures r.Fail? ==> r.error == INVALID_ADDRESS
      ensures replyTo == if r.Pass? then address else old(replyTo)
    {
      r := ValidateAddress(address);
      if r.Pass? {
        replyTo := address;
      }
    }

    /** The `subject` setter: the subject is stored stripped. */
    method SetSubject(s: string)
      requires Valid()
      modifies this`subject
      ensures Valid()
      ensures subject == Strip(s)
      ensures IsSubjectSet() <==> !IsBlank(s)
    {
      subject := Strip(s);
      StripBlankIff(s);
    }

    /** `set_header(name, value)`: the name is upper-cased; `None` deletes, and any other value
        is stored only when the name is not set yet. */
    method SetHeader(name: string, value: Option<string>)
      requires Valid()
      modifies this`headers
      ensures Valid()
      ensures headers == Update(old(headers), Upper(name), value)
    {
      UpperIdempotent(name);
      headers := Update(headers, Upper(name), value);
    }

    /** `is_sender_set`. */
    function IsSenderSet(): (b: bool)
      requires Valid()
      reads this
      ensures b <==> sender != ""
      ensures b ==> IsValidAddress(sender)
    {
      sender != ""
    }

    /** `is_reply_to_set`. */
    function IsReplyToSet(): (b: bool)
      requires Valid()
      reads this
      ensures b <==> replyTo != ""
      ensures b ==> IsValidAddress(replyTo)
    {
      replyTo != ""
    }

    /** `is_recipient_set`: some address in To, cc or bcc. */
    function IsRecipientSet(): (b: bool)
      reads this
      ensures b <==> exists a :: a in to || a in cc || a in bcc
    {
      if |to| > 0 then assert to[0] in to; true
      else if |cc| > 0 then assert cc[0] in cc; true
      else if |bcc| > 0 then assert bcc[0] in bcc; true
      else false
    }

    /** `is_subject_set`: the subject last set had a character other than whitespace. */
    function IsSubjectSet(): (b: bool)
      requires Valid()
      reads this
      ensures b <==> !IsBlank(subject)
    {
      assert subject != "" ==> !IsWhitespace(subject[0]);
      subject != ""
    }

    /** The state `_apply_headers` reads. */
    function Env(): Envelope
      reads this
    {
      Envelope(sender, to, cc, bcc, replyTo, subject, headers)
    }

    /** `_apply_headers(part)`: From, To, cc, Reply-To, Date (when absent), Subject and the
        additional headers are appended to the part's header list; `date` is the formatted
        current time. */
    method ApplyHeaders(part: Part, date: string)
      modifies part`headers
      ensures part.headers == old(part.headers) + RootFields(Env(), old(part.headers), date)
    {
      ghost var existing := part.headers;
      ghost var e := Env();
      WriteAddresses(part);
      ghost var addresses := AddressFields(e);
      ghost var dated := if Has(existing + addresses, DATE) then [] else [Field(DATE, Plain(date))];
      if !Has(part.headers, DATE) {
        part.AddHeader(Field(DATE, Plain(date)));
      }
      part.AddHeader(Field(SUBJECT, if NeedsEncoding(subject) then EncodedWord(subject, "utf-8") else Plain(subject)));
      assert part.headers == existing + (addresses + dated + [Field(SUBJECT, SubjectValue(e.subject))]);
      WriteAdditionalHeaders(part);
    }

    /** The address part of `_apply_headers`: From when a sender is set, To, cc when there are
        cc recipients, and Reply-To when a reply address is set. */
    method WriteAddresses(part: Part)
      modifies part`headers
      ensures part.headers == old(part.headers) + AddressFields(Env())
    {
      ghost var from := if sender != "" then [Field(FROM, Plain(sender))] else [];
      ghost var toField := [Field(TO, Plain(if |to| > 0 then JoinComma(to) else UNDISCLOSED))];
      ghost var ccField := if |cc| > 0 then [Field(CC, Plain(JoinComma(cc)))] else [];
      ghost var replyField := if replyTo != "" then [Field(REPLY_TO, Plain(JoinComma(Characters(replyTo))))] else [];
      assert AddressFields(Env()) == from + toField + ccField + replyField;
      if sender != "" {
        part.AddHeader(Field(FROM, Plain(sender)));
      }
      assert part.headers == old(part.headers) + from;
      part.AddHeader(Field(TO, Plain(if |to| > 0 then JoinComma(to) else UNDISCLOSED)));
      assert part.headers == old(part.headers) + (from + toField);
      if |cc| > 0 {
        part.AddHeader(Field(CC, Plain(JoinComma(cc))));
      }
      assert part.headers == old(part.headers) + (from + toField + ccField);
      if replyTo != "" {
        part.AddHeader(Field(REPLY_TO, Plain(JoinComma(Characters(replyTo)))));
      }
    }

    /** The last loop of `_apply_headers`: every additional header, in dictionary order. */
    method WriteAdditionalHeaders(part: Part)
      modifies part`headers
      ensures part.headers == old(part.headers) + ExtraFields(headers)
    {
      var i := 0;
      while i < |headers|
        invariant 0 <= i <= |headers|
        invariant part.headers == old(part.headers) + ExtraFields(headers)[..i]
      {
        part.AddHeader(Field(headers[i].0, Plain(headers[i].1)));
        i := i + 1;
      }
      assert ExtraFields(headers)[..i] == ExtraFields(headers);
    }

    /** The first half of `_body`: the only body part, or a fresh multipart/alternative
        container holding every body part in order. */
    method AlternativesRoot() returns (p: Part)
      requires Valid() && bodies != []
      ensures Alternatives(p, bodies)
      ensures |bodies| > 1 ==> fresh(p) && p.headers == ContainerFields(ALTERNATIVE)
    {
      if |bodies| > 1 {
        ContainerTypes();
        p := Part.Container(ALTERNATIVE);
        var i := 0;
        while i < |bodies|
          invariant 0 <= i <= |bodies|
          invariant p.children == bodies[..i]
          invariant p.headers == ContainerFields(ALTERNATIVE)
          modifies p`children
        {
          p.Attach(bodies[i]);
          i := i + 1;
        }
      } else {
        p := bodies[0];
      }
    }

    /** `_body`: the body tree, built from fresh containers; a `ValueError` without bodies. */
    method Body() returns (r: Result<Part, Error>)
      requires Valid()
      ensures r.Failure? <==> bodies == []
      ensures r.Failure? ==> r.error == NO_BODY
      ensures r.Success? ==> BodyTree(r.value, bodies, related)
      ensures r.Success? ==> (r.value == bodies[0] <==> |bodies| == 1 && related == [])
      ensures r.Success? && r.value != bodies[0] ==>
        fresh(r.value) && r.value.headers == ContainerFields(r.value.mimeType)
      ensures r.Success? && related != [] && |bodies| > 1 ==> fresh(r.value.children[0])
    {
      if |bodies| < 1 {
        return Failure(NO_BODY);
      }
      var bodyRoot := AlternativesRoot();
      if |related| > 0 {
        var root := RelatedRoot(bodyRoot);
        return Success(root);
      }
      return Success(bodyRoot);
    }

    /** The second half of `_body`: a fresh multipart/related container holding the
        alternatives and then every body-related part in order. */
    method RelatedRoot(alternatives: Part) returns (root: Part)
      ensures fresh(root) && root.kind.Multipart? && root.mimeType == RELATED
      ensures root.children == [alternatives] + related && root.headers == ContainerFields(RELATED)
    {
      ContainerTypes();
      root := Part.Container(RELATED);
      root.Attach(alternatives);
      var i := 0;
      while i < |related|
        invariant 0 <= i <= |related|
        invariant root.children == [alternatives] + related[..i]
        invariant root.headers == ContainerFields(RELATED)
        modifies root`children
      {
        root.Attach(related[i]);
        i := i + 1;
      }
    }

    /** `_add_body_to_multipart(part)`: the body tree becomes the next child of `part`. */
    method AddBodyToMultipart(part: Part) returns (r: Outcome<Error>)
      requires Valid() && part.Valid() && part.kind.Multipart?
      modifies part`children
      ensures r.Fail? <==> bodies == []
      ensures r.Fail? ==> r.error == NO_BODY && part.children == old(part.children)
      ensures r.Pass? ==>
        && |part.children| == |old(part.children)| + 1
        && part.children[..|old(part.children)|] == old(part.children)
        && var child := part.children[|old(part.children)|];
           && BodyTree(child, bodies, related)
           && (child == bodies[0] <==> |bodies| == 1 && related == [])
           && (child != bodies[0] ==> fresh(child) && child.headers == ContainerFields(child.mimeType))
           && (related != [] && |bodies| > 1 ==> fresh(child.children[0]))
    {
      var body := Body();
      if body.Failure? {
        return Fail(body.error);
      }
      part.Attach(body.value);
      return Pass;
    }

    /** `_add_attachments_to_multipart(part)`: every attachment, in order, becomes a child. */
    method AddAttachmentsToMultipart(part: Part)
      requires attachments == [] || part.payload.None?
      modifies (if attachments == [] then {} else {part})`children
      ensures part.children == old(part.children) + attachments
    {
      var i := 0;
      while i < |attachments|
        invariant 0 <= i <= |attachments|
        invariant part.children == old(part.children) + attachments[..i]
      {
        part.Attach(attachments[i]);
        i := i + 1;
      }
    }

    /** `_populate_message()`. Without a subject it raises `ValueError`. With attachments the
        root is a fresh multipart/mixed part: it gets the envelope headers first and then the
        body tree and the attachments as children, so a missing body is only noticed after
        the root has been stored. Without attachments the body tree itself is the root. */
    method PopulateMessage(date: string) returns (r: Outcome<Error>)
      requires Valid()
      modifies this`message, (if |bodies| == 1 && related == [] && attachments == [] then {bodies[0]} else {})`headers
      ensures Valid()
      ensures r.Fail? <==> !IsSubjectSet() || bodies == []
      ensures r.Fail? ==> r.error == if IsSubjectSet() then NO_BODY else NO_SUBJECT
      ensures !IsSubjectSet() || (attachments == [] && bodies == []) ==> message == old(message)
      ensures IsSubjectSet() && attachments != [] ==>
        && message.Some? && fresh(message.value)
        && message.value.kind.Multipart? && message.value.mimeType == MIXED
        && message.value.headers == ContainerFields(MIXED) + RootFields(Env(), ContainerFields(MIXED), date)
        && (bodies == [] ==> message.value.children == [])
        && (bodies != [] ==>
              && |message.value.children| == |attachments| + 1
              && message.value.children[1..] == attachments
              && BodyTree(message.value.children[0], bodies, related)
              && var child := message.value.children[0];
                 && (child == bodies[0] <==> |bodies| == 1 && related == [])
                 && (child != bodies[0] ==> fresh(child) && child.headers == ContainerFields(child.mimeType))
                 && (related != [] && |bodies| > 1 ==> fresh(child.children[0])))
      ensures IsSubjectSet() && attachments == [] && bodies != [] ==>
        && message.Some? && BodyTree(message.value, bodies, related)
        && (message.value == bodies[0] <==> |bodies| == 1 && related == [])
        && (message.value != bodies[0] ==> fresh(message.value))
        && (related != [] && |bodies| > 1 ==> fresh(message.value.children[0]))
        && var base := if |bodies| == 1 && related == [] then old(bodies[0].headers)
                       else ContainerFields(message.value.mimeType);
           message.value.headers == base + RootFields(Env(), base, date)
    {
      if !IsSubjectSet() {
        return Fail(NO_SUBJECT);
      }
      if |attachments| > 0 {
        r := PopulateMixed(date);
      } else {
        r := PopulateFromBody(date);
      }
    }

    /** The branch of `_populate_message()` with attachments. */
    method PopulateMixed(date: string) returns (r: Outcome<Error>)
      requires Valid() && attachments != []
      modifies this`message
      ensures r.Fail? <==> bodies == []
      ensures r.Fail? ==> r.error == NO_BODY
      ensures && message.Some? && fresh(message.value)
              && message.value.kind.Multipart? && message.value.mimeType == MIXED
              && message.value.headers == ContainerFields(MIXED) + RootFields(Env(), ContainerFields(MIXED), date)
      ensures bodies == [] ==> message.value.children == []
      ensures bodies != [] ==>
        && |message.value.children| == |attachments| + 1
        && message.value.children[1..] == attachments
        && BodyTree(message.value.children[0], bodies, related)
        && var child := message.value.children[0];
           && (child == bodies[0] <==> |bodies| == 1 && related == [])
           && (child != bodies[0] ==> fresh(child) && child.headers == ContainerFields(child.mimeType))
           && (related != [] && |bodies| > 1 ==> fresh(child.children[0]))
    {
      ContainerTypes();
      var root := Part.Container(MIXED);
      message := Some(root);
      ApplyHeaders(root, date);
      r := AddBodyToMultipart(root);
      if r.Fail? {
        return;
      }
      AddAttachmentsToMultipart(root);
    }

    /** The branch of `_populate_message()` without attachments: the body tree is the root. */
    method PopulateFromBody(date: string) returns (r: Outcome<Error>)
      requires Valid() && attachments == []
      modifies this`message, (if |bodies| == 1 && related == [] then {bodies[0]} else {})`headers
      ensures r.Fail? <==> bodies == []
      ensures r.Fail? ==> r.error == NO_BODY && message == old(message)
      ensures r.Pass? ==>
        && message.Some? && BodyTree(message.value, bodies, related)
        && (message.value == bodies[0] <==> |bodies| == 1 && related == [])
        && (message.value != bodies[0] ==> fresh(message.value))
        && (related != [] && |bodies| > 1 ==> fresh(message.value.children[0]))
        && var base := if |bodies| == 1 && related == [] then old(bodies[0].headers)
                       else ContainerFields(message.value.mimeType);
           message.value.headers == base + RootFields(Env(), base, date)
    {
      var body := Body();
      if body.Failure? {
        return Fail(body.error);
      }
      var root := body.value;
      message := Some(root);
      ApplyHeaders(root, date);
      AddAttachmentsToMultipart(root);
      return Pass;
    }
  }

  /** A single body part and nothing set but the subject: the root is the body part
      itself, and its headers read MIME-Version, Content-Transfer-Encoding, Content-Type,
      To (undisclosed), Date and Subject. */
  lemma PlainMessageHeaders(mimeType: string, subject: string, filename: string, contentId: string, date: string)
    ensures var e := Envelope("", [], [], [], "", subject, []);
      var base := ConstructionFields(MessageBody, mimeType, filename, contentId);
      base + RootFields(e, base, date)
        == [Field(MIME_VERSION, Plain("1.0")),
            Field(CONTENT_TRANSFER_ENCODING, Plain("quoted-printable")),
            Field(CONTENT_TYPE, WithParam(mimeType, "charset", "UTF-8")),
            Field(TO, Plain(UNDISCLOSED)),
            Field(DATE, Plain(date)),
            Field(SUBJECT, SubjectValue(subject))]
  {
    var e := Envelope("", [], [], [], "", subject, []);
    var base := ConstructionFields(MessageBody, mimeType, filename, contentId);
    var addresses := AddressFields(e);
    assert addresses == [Field(TO, Plain(UNDISCLOSED))];
    NoDateField(MessageBody, mimeType, filename, contentId);
    assert !Has(base + addresses, DATE) by {
      NamesDiffer(TO, DATE, 0);
      HasIffValues(base, DATE);
      HasIffValues(addresses, DATE);
      HasAppend(base, addresses, DATE);
      ValuesOne(addresses[0], DATE);
    }
    assert ExtraFields([]) == [];
  }
}

=== FILE: fields.dfy ===
/** The header list of a MIME part, as `email.message.Message` keeps it: an ordered list of
    (name, value) fields in which `msg[name] = v` and `add_header` append (never replace),
    names compare without regard to case, and `del msg[name]` drops every field of that name. */
module Fields {
  import opened Text

  /** A header value: a plain string; a value with one `; param="arg"` parameter (what
      `add_header(..., filename=...)` and `set_param` produce); or an RFC 2047 encoded-word,
      which `email.header.Header(text, charset)` renders when the message is serialised. */
  datatype FieldValue =
    | Plain(text: string)
    | WithParam(main: string, param: string, arg: string)
    | EncodedWord(text: string, charset: string)

  datatype Field = Field(name: string, value: FieldValue)

  const MIME_VERSION := "MIME-Version"
  const CONTENT_TYPE := "Content-Type"
  const CONTENT_TRANSFER_ENCODING := "Content-Transfer-Encoding"
  const CONTENT_DISPOSITION := "Content-Disposition"
  const CONTENT_ID := "Content-ID"
  const FROM := "From"
  const TO := "To"
  const CC := "cc"
  const REPLY_TO := "Reply-To"
  const DATE := "Date"
  const SUBJECT := "Subject"

  /** Header names are compared case-insensitively. */
  predicate SameName(a: string, b: string) {
    Lower(a) == Lower(b)
  }

  /** `name in msg`. */
  predicate Has(fields: seq<Field>, name: string) {
    exists i :: 0 <= i < |fields| && SameName(fields[i].name, name)
  }

  /** `msg.get_all(name)`: the values of the fields called `name`, in order. */
  function Values(fields: seq<Field>, name: string): seq<FieldValue> {
    if fields == [] then []
    else (if SameName(fields[0].name, name) then [fields[0].value] else []) + Values(fields[1..], name)
  }

  /** `del msg[name]`: every field called `name` is dropped, the others keep their order. */
  function Without(fields: seq<Field>, name: string): seq<Field> {
    if fields == [] then []
    else if SameName(fields[0].name, name) then Without(fields[1..], name)
    else [fields[0]] + Without(fields[1..], name)
  }

  /** After `del msg[name]` the name has no value left and every other name keeps its values. */
  lemma {:induction false} WithoutValues(fields: seq<Field>, name: string, other: string)
    ensures Values(Without(fields, name), name) == []
    ensures !SameName(other, name) ==> Values(Without(fields, name), other) == Values(fields, other)
  {
    if fields != [] {
      WithoutValues(fields[1..], name, other);
      if !SameName(fields[0].name, name) {
        assert ([fields[0]] + Without(fields[1..], name))[1..] == Without(fields[1..], name);
      }
    }
  }

  lemma {:induction false} ValuesAppend(a: seq<Field>, b: seq<Field>, name: string)
    ensures Values(a + b, name) == Values(a, name) + Values(b, name)
  {
    if a != [] {
      assert (a + b)[1..] == a[1..] + b;
      ValuesAppend(a[1..], b, name);
    } else {
      assert a + b == b;
    }
  }

  lemma ValuesAppendThree(a: seq<Field>, b: seq<Field>, c: seq<Field>, name: string)
    ensures Values(a + b + c, name) == Values(a, name) + Values(b, name) + Values(c, name)
  {
    ValuesAppend(a + b, c, name);
    ValuesAppend(a, b, name);
  }

  /** A name is present exactly when it has at least one value. */
  lemma {:induction false} HasIffValues(fields: seq<Field>, name: string)
    ensures Has(fields, name) <==> Values(fields, name) != []
  {
    if fields != [] {
      HasIffValues(fields[1..], name);
      if Has(fields[1..], name) {
        var i :| 0 <= i < |fields[1..]| && SameName(fields[1..][i].name, name);
        assert SameName(fields[i + 1].name, name);
      }
      if Has(fields, name) && !SameName(fields[0].name, name) {
        var i :| 0 <= i < |fields| && SameName(fields[i].name, name);
        assert fields[1..][i - 1] == fields[i];
      }
    }
  }

  /** Two names differ, ignoring case, when their lengths differ or when the letters at some
      position differ. */
  lemma NamesDiffer(a: string, b: string, i: nat)
    requires |a| != |b| || (i < |a| && i < |b| && LowerChar(a[i]) != LowerChar(b[i]))
    ensures !SameName(a, b)
  {
    if |a| == |b| {
      assert Lower(a)[i] != Lower(b)[i];
    }
  }

  /** The names the model writes differ from one another, ignoring case. */
  lemma DistinctNames()
    ensures !SameName(MIME_VERSION, CONTENT_TYPE) && !SameName(MIME_VERSION, CONTENT_TRANSFER_ENCODING)
    ensures !SameName(MIME_VERSION, CONTENT_ID) && !SameName(MIME_VERSION, CONTENT_DISPOSITION)
    ensures !SameName(CONTENT_TYPE, CONTENT_TRANSFER_ENCODING) && !SameName(CONTENT_TYPE, CONTENT_ID)
    ensures !SameName(CONTENT_TYPE, CONTENT_DISPOSITION) && !SameName(CONTENT_TRANSFER_ENCODING, CONTENT_ID)
    ensures !SameName(CONTENT_TRANSFER_ENCODING, CONTENT_DISPOSITION) && !SameName(CONTENT_ID, CONTENT_DISPOSITION)
    ensures !SameName(DATE, MIME_VERSION) && !SameName(DATE, CONTENT_TYPE) && !SameName(DATE, CONTENT_ID)
    ensures !SameName(DATE, CONTENT_TRANSFER_ENCODING) && !SameName(DATE, CONTENT_DISPOSITION)
    ensures !SameName(FROM, TO) && !SameName(FROM, CC) && !SameName(FROM, REPLY_TO)
    ensures !SameName(FROM, DATE) && !SameName(FROM, SUBJECT) && !SameName(CC, REPLY_TO)
    ensures !SameName(TO, CC) && !SameName(TO, REPLY_TO) && !SameName(TO, DATE) && !SameName(TO, SUBJECT)
    ensures !SameName(CC, DATE) && !SameName(CC, SUBJECT)
    ensures !SameName(REPLY_TO, DATE) && !SameName(REPLY_TO, SUBJECT) && !SameName(DATE, SUBJECT)
  {
    NamesDiffer(MIME_VERSION, CONTENT_TYPE, 0);
    NamesDiffer(MIME_VERSION, CONTENT_TRANSFER_ENCODING, 0);
    NamesDiffer(MIME_VERSION, CONTENT_ID, 0);
    NamesDiffer(MIME_VERSION, CONTENT_DISPOSITION, 0);
    NamesDiffer(CONTENT_TYPE, CONTENT_TRANSFER_ENCODING, 0);
    NamesDiffer(CONTENT_TYPE, CONTENT_ID, 0);
    NamesDiffer(CONTENT_TYPE, CONTENT_DISPOSITION, 0);
    NamesDiffer(CONTENT_TRANSFER_ENCODING, CONTENT_ID, 0);
    NamesDiffer(CONTENT_TRANSFER_ENCODING, CONTENT_DISPOSITION, 0);
    NamesDiffer(CONTENT_ID, CONTENT_DISPOSITION, 0);
    NamesDiffer(DATE, MIME_VERSION, 0);
    NamesDiffer(DATE, CONTENT_TYPE, 0);
    NamesDiffer(DATE, CONTENT_ID, 0);
    NamesDiffer(DATE, CONTENT_TRANSFER_ENCODING, 0);
    NamesDiffer(DATE, CONTENT_DISPOSITION, 0);
    NamesDiffer(FROM, TO, 0);
    NamesDiffer(FROM, CC, 0);
    NamesDiffer(FROM, REPLY_TO, 0);
    NamesDiffer(FROM, DATE, 0);
    NamesDiffer(FROM, SUBJECT, 0);
    NamesDiffer(CC, REPLY_TO, 0);
    NamesDiffer(TO, CC, 0);
    NamesDiffer(TO, REPLY_TO, 0);
    NamesDiffer(TO, DATE, 0);
    NamesDiffer(TO, SUBJECT, 0);
    NamesDiffer(CC, DATE, 0);
    NamesDiffer(CC, SUBJECT, 0);
    NamesDiffer(REPLY_TO, DATE, 0);
    NamesDiffer(REPLY_TO, SUBJECT, 0);
    NamesDiffer(DATE, SUBJECT, 0);
  }

  lemma ValuesOne(a: Field, name: string)
    ensures Values([a], name) == if SameName(a.name, name) then [a.value] else []
  {
  }

  lemma ValuesTwo(a: Field, b: Field, name: string)
    ensures Values([a, b], name)
         == (if SameName(a.name, name) then [a.value] else []) + (if SameName(b.name, name) then [b.value] else [])
  {
    assert [a, b][1..] == [b];
    ValuesOne(b, name);
  }
}

=== FILE: message_rules.dfy ===
/** The pure rules behind the composer (`Message`, src/dNG/data/rfc/email/message.py): its
    de-duplicating lists, its first-write-wins header dictionary, the character class that
    decides whether the subject needs an RFC 2047 encoded-word, and the header fields that
    `_apply_headers` appends to the root part. */
module MessageRules {
  import opened Wrappers
  import opened Text
  import opened Fields

  /** No element occurs twice. */
  predicate NoDuplicates<T(==)>(xs: seq<T>) {
    forall i, j :: 0 <= i < j < |xs| ==> xs[i] != xs[j]
  }

  /** `if x not in xs: xs.append(x)`: an insertion-ordered set. */
  function Added<T(==)>(xs: seq<T>, x: T): (r: seq<T>)
    ensures xs <= r && |r| <= |xs| + 1
    ensures x in r && forall i :: 0 <= i < |r| ==> r[i] in xs || r[i] == x
    ensures NoDuplicates(xs) ==> NoDuplicates(r)
  {
    if x in xs then xs else xs + [x]
  }

  /** Adding an element twice is adding it once. */
  lemma AddedIdempotent<T>(xs: seq<T>, x: T)
    ensures Added(Added(xs, x), x) == Added(xs, x)
  {
  }

  /** The `headers` dictionary of a message: keys in insertion order, as a Python dict. */
  type HeaderDict = seq<(string, string)>

  predicate UniqueKeys(d: HeaderDict) {
    forall i, j :: 0 <= i < j < |d| ==> d[i].0 != d[j].0
  }

  /** `d.get(key)`. */
  function Lookup(d: HeaderDict, key: string): Option<string> {
    if d == [] then None else if d[0].0 == key then Some(d[0].1) else Lookup(d[1..], key)
  }

  /** The keys of `d`, in iteration order. */
  function Keys(d: HeaderDict): (r: seq<string>)
    ensures |r| == |d|
  {
    seq(|d|, i requires 0 <= i < |d| => d[i].0)
  }

  lemma {:induction false} LookupIffKey(d: HeaderDict, key: string)
    ensures Lookup(d, key).Some? <==> key in Keys(d)
  {
    if d != [] {
      LookupIffKey(d[1..], key);
      assert Keys(d) == [d[0].0] + Keys(d[1..]);
    }
  }

  lemma {:induction false} LookupAppend(d: HeaderDict, key: string, value: string, k: string)
    ensures Lookup(d + [(key, value)], k) == if Lookup(d, k).Some? then Lookup(d, k) else if k == key then Some(value) else None
  {
    if d == [] {
      assert d + [(key, value)] == [(key, value)];
    } else {
      assert (d + [(key, value)])[1..] == d[1..] + [(key, value)];
      LookupAppend(d[1..], key, value, k);
    }
  }

  lemma UniqueRest(d: HeaderDict)
    requires d != [] && UniqueKeys(d)
    ensures UniqueKeys(d[1..]) && forall p :: p in d[1..] ==> p.0 != d[0].0
  {
    forall p | p in d[1..] ensures p.0 != d[0].0 {
      var k :| 0 <= k < |d[1..]| && d[1..][k] == p;
      assert d[k + 1] == p;
    }
  }

  lemma UniquePrepend(x: (string, string), r: HeaderDict, d: HeaderDict)
    requires UniqueKeys(r) && forall p :: p in r ==> p in d
    requires forall p :: p in d ==> p.0 != x.0
    ensures UniqueKeys([x] + r)
  {
    forall i, j | 0 <= i < j < |[x] + r| ensures ([x] + r)[i].0 != ([x] + r)[j].0 {
      assert ([x] + r)[j] == r[j - 1];
      if i == 0 {
        assert r[j - 1] in d;
      } else {
        assert ([x] + r)[i] == r[i - 1];
      }
    }
  }

  lemma UniqueAppend(d: HeaderDict, x: (string, string))
    requires UniqueKeys(d) && x.0 !in Keys(d)
    ensures UniqueKeys(d + [x])
  {
    forall i, j | 0 <= i < j < |d + [x]| ensures (d + [x])[i].0 != (d + [x])[j].0 {
      assert (d + [x])[i] == d[i];
      if j == |d| {
        assert Keys(d)[i] == d[i].0;
      } else {
        assert (d + [x])[j] == d[j];
      }
    }
  }

  /** `a` is `b` with some entries left out, the others in their order. */
  predicate Subsequence<T(==)>(a: seq<T>, b: seq<T>)
    decreases |b|
  {
    a == [] || (b != [] && ((a[0] == b[0] && Subsequence(a[1..], b[1..])) || Subsequence(a, b[1..])))
  }

  lemma {:induction false} SubsequenceReflexive<T>(a: seq<T>)
    ensures Subsequence(a, a)
  {
    if a != [] {
      SubsequenceReflexive(a[1..]);
    }
  }

  /** `del d[key]`: the other entries stay, in their order. */
  function Remove(d: HeaderDict, key: string): (r: HeaderDict)
    ensures |r| <= |d|
    ensures forall k :: Lookup(r, k) == if k == key then None else Lookup(d, k)
    ensures forall p :: p in r ==> p in d
    ensures Subsequence(r, d)
    ensures UniqueKeys(d) ==> UniqueKeys(r)
  {
    if d == [] then []
    else if d[0].0 == key then Remove(d[1..], key)
    else
      var rest := Remove(d[1..], key);
      assert ([d[0]] + rest)[1..] == rest;
      assert UniqueKeys(d) ==> UniqueKeys([d[0]] + rest) by {
        if UniqueKeys(d) {
          UniqueRest(d);
          UniquePrepend(d[0], rest, d[1..]);
        }
      }
      [d[0]] + rest
  }

  /** `set_header(name, value)` once the name is upper-cased: `None` deletes the entry; any
      other value is stored only when the key is absent. */
  function Update(d: HeaderDict, key: string, value: Option<string>): (r: HeaderDict)
    ensures Lookup(r, key) == if value.None? then None else if Lookup(d, key).Some? then Lookup(d, key) else value
    ensures forall k :: k != key ==> Lookup(r, k) == Lookup(d, k)
    ensures UniqueKeys(d) ==> UniqueKeys(r)
    ensures value.Some? && Lookup(d, key).None? ==> r == d + [(key, value.value)] && Keys(r) == Keys(d) + [key]
    ensures value.Some? && Lookup(d, key).Some? ==> r == d
    ensures value.None? ==> Subsequence(r, d) && (Lookup(d, key).None? ==> r == d)
    ensures forall p :: p in r ==> p in d || (value.Some? && p == (key, value.value))
  {
    if value.None? then
      (if Lookup(d, key).Some? then Remove(d, key) else SubsequenceReflexive(d); d)
    else if Lookup(d, key).Some? then d
    else
      LookupIffKey(d, key);
      forall k ensures Lookup(d + [(key, value.value)], k) == if k == key then value else Lookup(d, k) {
        LookupAppend(d, key, value.value, k);
      }
      assert Keys(d + [(key, value.value)]) == Keys(d) + [key];
      assert UniqueKeys(d) ==> UniqueKeys(d + [(key, value.value)]) by {
        if UniqueKeys(d) {
          UniqueAppend(d, (key, value.value));
        }
      }
      d + [(key, value.value)]
  }

  /** A second write under the same key changes nothing: the first write wins. */
  lemma FirstWriteWins(d: HeaderDict, key: string, first: string, second: string)
    ensures Update(Update(d, key, Some(first)), key, Some(second)) == Update(d, key, Some(first))
  {
  }

  /** Deleting a key lets the next write through. */
  lemma DeleteThenSet(d: HeaderDict, key: string, value: string)
    ensures Lookup(Update(Update(d, key, None), key, Some(value)), key) == Some(value)
  {
  }

  /** The character class of the subject regular expression: 0x00-0x19, `"`, `(`, `)`, `,`,
      `.`, `:`, `;`, `<`, `>`, `@`, `[`, `\`, `]` and 0x7F-0xFF. */
  predicate IsSpecial(c: char) {
    var n := c as int;
    n <= 0x19 || n == 0x22 || n == 0x28 || n == 0x29 || n == 0x2C || n == 0x2E
    || (0x3A <= n <= 0x3C) || n == 0x3E || n == 0x40 || (0x5B <= n <= 0x5D) || (0x7F <= n <= 0xFF)
  }

  /** `re.search(<class>, subject) is not None`. */
  function NeedsEncoding(s: string): (b: bool)
    ensures b <==> exists i :: 0 <= i < |s| && IsSpecial(s[i])
  {
    if s == [] then false
    else
      assert forall i :: 0 < i < |s| ==> s[i] == s[1..][i - 1];
      IsSpecial(s[0]) || NeedsEncoding(s[1..])
  }

  /** The Subject header value: verbatim, or an encoded-word in UTF-8. */
  function SubjectValue(subject: string): (v: FieldValue)
    ensures v == Plain(subject) <==> forall i :: 0 <= i < |subject| ==> !IsSpecial(subject[i])
    ensures v == Plain(subject) || v == EncodedWord(subject, "utf-8")
  {
    if NeedsEncoding(subject) then EncodedWord(subject, "utf-8") else Plain(subject)
  }

  /** A subject with a German umlaut goes out as a UTF-8 encoded-word. */
  lemma UmlautSubjectEncoded(subject: string, i: nat)
    requires i < |subject| && subject[i] in {'\U{e4}', '\U{f6}', '\U{fc}'}
    ensures SubjectValue(subject) == EncodedWord(subject, "utf-8")
  {
    assert IsSpecial(subject[i]);
  }

  /** The message state `_apply_headers` reads. */
  datatype Envelope = Envelope(
    sender: string,
    to: seq<string>,
    cc: seq<string>,
    bcc: seq<string>,
    replyTo: string,
    subject: string,
    extra: HeaderDict)

  const UNDISCLOSED := "undisclosed-recipients"

  /** From, To, cc and Reply-To. The Reply-To value is `", ".join` applied to the address
      string itself. */
  function AddressFields(e: Envelope): seq<Field> {
    (if e.sender != "" then [Field(FROM, Plain(e.sender))] else [])
    + [Field(TO, Plain(if |e.to| > 0 then JoinComma(e.to) else UNDISCLOSED))]
    + (if |e.cc| > 0 then [Field(CC, Plain(JoinComma(e.cc)))] else [])
    + (if e.replyTo != "" then [Field(REPLY_TO, Plain(JoinComma(Characters(e.replyTo))))] else [])
  }

  /** The additional headers, in dictionary order. */
  function ExtraFields(extra: HeaderDict): (r: seq<Field>)
    ensures |r| == |extra|
  {
    seq(|extra|, i requires 0 <= i < |extra| => Field(extra[i].0, Plain(extra[i].1)))
  }

  /** What `_apply_headers` appends to a part whose headers are `existing`; `date` is the
      clock reading it formats. */
  function RootFields(e: Envelope, existing: seq<Field>, date: string): seq<Field> {
    var addresses := AddressFields(e);
    addresses
    + (if Has(existing + addresses, DATE) then [] else [Field(DATE, Plain(date))])
    + [Field(SUBJECT, SubjectValue(e.subject))]
    + ExtraFields(e.extra)
  }

  /** `name in (a + b)` splits over the two halves. */
  lemma {:induction false} HasAppend(a: seq<Field>, b: seq<Field>, name: string)
    ensures Has(a + b, name) <==> Has(a, name) || Has(b, name)
  {
    HasIffValues(a + b, name);
    HasIffValues(a, name);
    HasIffValues(b, name);
    ValuesAppend(a, b, name);
  }

  /** The values of one name in the address fields, piece by piece. */
  lemma AddressValues(e: Envelope, name: string)
    ensures Values(AddressFields(e), name)
         == (if e.sender != "" && SameName(FROM, name) then [Plain(e.sender)] else [])
          + (if SameName(TO, name) then [Plain(if |e.to| > 0 then JoinComma(e.to) else UNDISCLOSED)] else [])
          + (if |e.cc| > 0 && SameName(CC, name) then [Plain(JoinComma(e.cc))] else [])
          + (if e.replyTo != "" && SameName(REPLY_TO, name) then [Plain(JoinComma(Characters(e.replyTo)))] else [])
  {
    var from := if e.sender != "" then [Field(FROM, Plain(e.sender))] else [];
    var to := [Field(TO, Plain(if |e.to| > 0 then JoinComma(e.to) else UNDISCLOSED))];
    var cc := if |e.cc| > 0 then [Field(CC, Plain(JoinComma(e.cc)))] else [];
    var replyTo := if e.replyTo != "" then [Field(REPLY_TO, Plain(JoinComma(Characters(e.replyTo))))] else [];
    ValuesAppend(from + to + cc, replyTo, name);
    ValuesAppend(from + to, cc, name);
    ValuesAppend(from, to, name);
    ValuesOne(to[0], name);
    if from != [] { ValuesOne(from[0], name); }
    if cc != [] { ValuesOne(cc[0], name); }
    if replyTo != [] { ValuesOne(replyTo[0], name); }
  }

  /** The values of one name in what `_apply_headers` appends, piece by piece. */
  lemma RootValues(e: Envelope, existing: seq<Field>, date: string, name: string)
    ensures Values(RootFields(e, existing, date), name)
         == Values(AddressFields(e), name)
          + (if !Has(existing, DATE) && SameName(DATE, name) then [Plain(date)] else [])
          + (if SameName(SUBJECT, name) then [SubjectValue(e.subject)] else [])
          + Values(ExtraFields(e.extra), name)
  {
    var addresses := AddressFields(e);
    var date := if Has(existing + addresses, DATE) then [] else [Field(DATE, Plain(date))];
    var subject := [Field(SUBJECT, SubjectValue(e.subject))];
    ValuesAppend(addresses + date + subject, ExtraFields(e.extra), name);
    ValuesAppend(addresses + date, subject, name);
    ValuesAppend(addresses, date, name);
    ValuesOne(subject[0], name);
    if date != [] { ValuesOne(date[0], name); }
    DistinctNames();
    AddressValues(e, DATE);
    HasIffValues(addresses, DATE);
    HasAppend(existing, addresses, DATE);
  }

  /** Exactly one To field is written: the recipients joined by ", ", or
      "undisclosed-recipients" when there are none; a header set under the name "To" comes
      on top of it. */
  lemma ToField(e: Envelope, existing: seq<Field>, date: string)
    ensures Values(RootFields(e, existing, date), TO)
         == [Plain(if |e.to| > 0 then JoinComma(e.to) else UNDISCLOSED)] + Values(ExtraFields(e.extra), TO)
  {
    DistinctNames();
    RootValues(e, existing, date, TO);
    AddressValues(e, TO);
  }

  /** A From field exactly when a sender is set. */
  lemma FromField(e: Envelope, existing: seq<Field>, date: string)
    ensures Values(RootFields(e, existing, date), FROM)
         == (if e.sender != "" then [Plain(e.sender)] else []) + Values(ExtraFields(e.extra), FROM)
  {
    DistinctNames();
    RootValues(e, existing, date, FROM);
    AddressValues(e, FROM);
  }

  /** A cc field exactly when there are cc recipients, holding all of them. */
  lemma CcField(e: Envelope, existing: seq<Field>, date: string)
    ensures Values(RootFields(e, existing, date), CC)
         == (if |e.cc| > 0 then [Plain(JoinComma(e.cc))] else []) + Values(ExtraFields(e.extra), CC)
  {
    DistinctNames();
    RootValues(e, existing, date, CC);
    AddressValues(e, CC);
  }

  /** A Reply-To field exactly when a reply address is set. */
  lemma ReplyToField(e: Envelope, existing: seq<Field>, date: string)
    ensures Values(RootFields(e, existing, date), REPLY_TO)
         == (if e.replyTo != "" then [Plain(JoinComma(Characters(e.replyTo)))] else [])
          + Values(ExtraFields(e.extra), REPLY_TO)
  {
    DistinctNames();
    RootValues(e, existing, date, REPLY_TO);
    AddressValues(e, REPLY_TO);
  }

  /** A Date field is added only when the part has none yet. */
  lemma DateField(e: Envelope, existing: seq<Field>, date: string)
    ensures Values(RootFields(e, existing, date), DATE)
         == (if Has(existing, DATE) then [] else [Plain(date)]) + Values(ExtraFields(e.extra), DATE)
  {
    DistinctNames();
    RootValues(e, existing, date, DATE);
    AddressValues(e, DATE);
  }

  /** Exactly one Subject field is written, encoded when the subject has a special character. */
  lemma SubjectField(e: Envelope, existing: seq<Field>, date: string)
    ensures Values(RootFields(e, existing, date), SUBJECT)
         == [SubjectValue(e.subject)] + Values(ExtraFields(e.extra), SUBJECT)
  {
    DistinctNames();
    RootValues(e, existing, date, SUBJECT);
    AddressValues(e, SUBJECT);
  }

  /** The bcc recipients are never written into the headers. */
  lemma BccNeverWritten(e: Envelope, existing: seq<Field>, date: string, bcc: seq<string>)
    ensures RootFields(e.(bcc := bcc), existing, date) == RootFields(e, existing, date)
  {
  }

  /** Every additional header is written once, under its upper-cased key, in insertion order. */
  lemma ExtraFieldsWritten(e: Envelope, existing: seq<Field>, date: string)
    ensures var r := RootFields(e, existing, date);
      r[|r| - |e.extra|..] == ExtraFields(e.extra)
      && forall i :: 0 <= i < |e.extra| ==> r[|r| - |e.extra| + i] == Field(e.extra[i].0, Plain(e.extra[i].1))
  {
  }

  /** Applying the headers a second time to the same part repeats To and Subject but adds no
      second Date. */
  lemma RepeatedApplication(e: Envelope, existing: seq<Field>, first: string, second: string)
    requires Values(existing, TO) == [] && Values(existing, DATE) == [] && Values(existing, SUBJECT) == []
    requires Values(ExtraFields(e.extra), TO) == [] && Values(ExtraFields(e.extra), DATE) == []
    requires Values(ExtraFields(e.extra), SUBJECT) == []
    ensures var once := existing + RootFields(e, existing, first);
      var twice := once + RootFields(e, once, second);
      && |Values(twice, TO)| == 2
      && Values(twice, SUBJECT) == [SubjectValue(e.subject), SubjectValue(e.subject)]
      && Values(twice, DATE) == [Plain(first)]
  {
    var once := existing + RootFields(e, existing, first);
    HasIffValues(existing, DATE);
    ToField(e, existing, first);
    DateField(e, existing, first);
    SubjectField(e, existing, first);
    ValuesAppend(existing, RootFields(e, existing, first), TO);
    ValuesAppend(existing, RootFields(e, existing, first), DATE);
    ValuesAppend(existing, RootFields(e, existing, first), SUBJECT);
    HasIffValues(once, DATE);
    ToField(e, once, second);
    DateField(e, once, second);
    SubjectField(e, once, second);
    ValuesAppend(once, RootFields(e, once, second), TO);
    ValuesAppend(once, RootFields(e, once, second), DATE);
    ValuesAppend(once, RootFields(e, once, second), SUBJECT);
  }

  /** The Reply-To value is `", ".join` over the characters of the address, so any address of
      two or more characters is written altered. */
  lemma ReplyToInterleaves(address: string)
    requires |address| >= 2
    ensures JoinComma(Characters(address)) != address
  {
    JoinCharactersLength(address);
  }

  /** The subject class reaches 0x19, not 0x20: a space needs no encoding, while the period
      and every Latin-1 character from 0x7F do. */
  lemma SubjectTrigger()
    ensures !IsSpecial(' ') && IsSpecial('.') && IsSpecial('ö') && IsSpecial('\U{7f}')
    ensures IsSpecial('\U{19}') && !IsSpecial('\U{1a}') && !IsSpecial('-')
  {
  }

  /** Characters above 0xFF are outside the class: a subject written in them alone is sent
      unencoded. */
  lemma SubjectAboveLatin1(subject: string)
    requires forall i :: 0 <= i < |subject| ==> subject[i] as int > 0xFF
    ensures SubjectValue(subject) == Plain(subject)
  {
  }

  /** Subjects of letters, digits and spaces go out verbatim. */
  lemma AlphanumericSubjectVerbatim(subject: string)
    requires forall i :: 0 <= i < |subject| ==>
      subject[i] == ' ' || 'a' <= subject[i] <= 'z' || 'A' <= subject[i] <= 'Z' || '0' <= subject[i] <= '9'
    ensures SubjectValue(subject) == Plain(subject)
  {
  }
}

=== FILE: part.dfy ===
/** One node of the MIME tree (`Part`, src/dNG/data/rfc/email/part.py). Construction is a
    kind-driven sequence of steps on the inherited header list: set the Content-Type, pick a
    transfer encoding and charset, encode the payload, and for the four attachment-like kinds
    add a Content-ID and a Content-Disposition with a filename. */
module MimePart {
  import opened Wrappers
  import opened Text
  import opened Fields

  newtype byte = x: int | 0 <= x < 256

  /** The six part kinds, the `TYPE_*` constants of the source. */
  datatype Kind = Attachment | BinaryAttachment | Inline | BinaryInline | MessageBody | Multipart
  {
    /** Kinds whose payload is base64-encoded. */
    predicate IsBinary() {
      BinaryAttachment? || BinaryInline?
    }

    /** Kinds whose payload is quoted-printable text in UTF-8. */
    predicate IsText() {
      Attachment? || Inline? || MessageBody?
    }

    /** Kinds that need a filename and get a Content-ID and a Content-Disposition. */
    predicate IsAttachmentLike() {
      Attachment? || BinaryAttachment? || BinaryInline? || Inline?
    }
  }

  /** A Python argument: a `str`, a `bytes` object or an object of any other type. */
  datatype Value = Str(text: string) | Bytes(octets: seq<byte>) | Other

  /** The encoded payload. The encoders (`b64encode`, `quopri.encodestring`, and the codec that
      turns a `str` argument into bytes first) are library code and stay symbolic. */
  datatype Payload = Base64Of(source: Value) | QuotedPrintableOf(source: Value)

  /** The bare `ValueError` of `set_type` for a type that is not `maintype/subtype`. */
  const INVALID_MIME_TYPE := ValueError("")
  const UNSUPPORTED_DATA := TypeError("Given data type is not supported")
  const UNSUPPORTED_FILENAME := TypeError("Given filename type is not supported")

  /** Data the leaf kinds accept: a `str` (coerced to bytes) or `bytes`. */
  predicate IsOctets(v: Value) {
    v.Str? || v.Bytes?
  }

  /** What `set_type` accepts: a type with exactly one "/". */
  predicate IsMimeType(mimeType: string) {
    Count(mimeType, '/') == 1
  }

  /** The error the constructor raises, if any. `set_type` checks the MIME type first; then
      the data is checked before the filename. A leaf kind refuses a missing (`None`) datum and
      one that is neither `str` nor `bytes`; empty data is accepted. */
  function ConstructionError(kind: Kind, mimeType: string, data: Option<Value>, filename: Option<Value>): (e: Option<Error>)
    ensures e.None? <==>
      IsMimeType(mimeType)
      && (kind.Multipart? || (data.Some? && IsOctets(data.value)))
      && (kind.IsAttachmentLike() ==> filename.Some? && filename.value.Str?)
    ensures e.Some? ==>
      e.value == if !IsMimeType(mimeType) then INVALID_MIME_TYPE
                 else if kind.Multipart? || (data.Some? && IsOctets(data.value)) then UNSUPPORTED_FILENAME
                 else UNSUPPORTED_DATA
  {
    if !IsMimeType(mimeType) then Some(INVALID_MIME_TYPE)
    else if !kind.Multipart? && data.None? then Some(UNSUPPORTED_DATA)
    else if (kind.IsBinary() || kind.IsText()) && !IsOctets(data.value) then Some(UNSUPPORTED_DATA)
    else if kind.IsAttachmentLike() && !(filename.Some? && filename.value.Str?) then Some(UNSUPPORTED_FILENAME)
    else None
  }

  /** The payload a successfully constructed part carries: none for a multipart part. */
  function PayloadFor(kind: Kind, data: Option<Value>): (p: Option<Payload>)
    requires kind.Multipart? || data.Some?
    ensures p.None? <==> kind.Multipart?
    ensures p.Some? ==> p.value.source == data.value
    ensures p.Some? ==> (p.value.Base64Of? <==> kind.IsBinary())
  {
    if kind.IsBinary() then Some(Base64Of(data.value))
    else if kind.IsText() then Some(QuotedPrintableOf(data.value))
    else None
  }

  /** `"cid{0:d}@mail".format(id(self))`. */
  function ContentIdFor(identity: nat): string {
    "cid" + Decimal(identity) + "@mail"
  }

  /** Parts with distinct identities get distinct content ids. */
  lemma ContentIdInjective(a: nat, b: nat)
    ensures ContentIdFor(a) == ContentIdFor(b) ==> a == b
  {
    if ContentIdFor(a) == ContentIdFor(b) {
      var s := ContentIdFor(a);
      assert s[3..|s| - 5] == Decimal(a);
      assert ContentIdFor(b)[3..|s| - 5] == Decimal(b);
      DecimalInjective(a, b);
    }
  }

  /** The disposition type of an attachment-like kind. */
  function DispositionType(kind: Kind): string
    requires kind.IsAttachmentLike()
  {
    if kind.Attachment? || kind.BinaryAttachment? then "attachment" else "inline"
  }

  /** The filename a successful construction uses; only attachment-like kinds read it. */
  function FilenameOf(filename: Option<Value>): string {
    if filename.Some? && filename.value.Str? then filename.value.text else ""
  }

  /** The header list a freshly constructed part has, in the order the constructor writes it. */
  function ConstructionFields(kind: Kind, mimeType: string, filename: string, contentId: string): seq<Field> {
    [Field(MIME_VERSION, Plain("1.0"))] + TypedFields(kind, mimeType) + TaggedFields(kind, filename, contentId)
  }

  /** The Content-Type and the encoding header. For a text kind `set_param` has moved the
      Content-Type after the transfer encoding. */
  function TypedFields(kind: Kind, mimeType: string): seq<Field> {
    if kind.IsText() then
      [Field(CONTENT_TRANSFER_ENCODING, Plain("quoted-printable")),
       Field(CONTENT_TYPE, WithParam(mimeType, "charset", "UTF-8"))]
    else if kind.IsBinary() then
      [Field(CONTENT_TYPE, Plain(mimeType)), Field(CONTENT_DISPOSITION, Plain("base64"))]
    else
      [Field(CONTENT_TYPE, Plain(mimeType))]
  }

  /** The Content-ID and Content-Disposition of an attachment-like kind. */
  function TaggedFields(kind: Kind, filename: string, contentId: string): seq<Field> {
    if kind.IsAttachmentLike() then
      [Field(CONTENT_ID, Plain("<" + contentId + ">")),
       Field(CONTENT_DISPOSITION, WithParam(DispositionType(kind), "filename", filename))]
    else []
  }

  /** The header list of a container the composer creates. */
  function ContainerFields(mimeType: string): seq<Field> {
    ConstructionFields(Multipart, mimeType, "", "")
  }

  /** The values of one name in the construction headers, piece by piece. */
  lemma PieceValues(kind: Kind, mimeType: string, filename: string, contentId: string, name: string)
    requires !SameName(MIME_VERSION, name)
    ensures Values(ConstructionFields(kind, mimeType, filename, contentId), name)
         == Values(TypedFields(kind, mimeType), name) + Values(TaggedFields(kind, filename, contentId), name)
  {
    var version := Field(MIME_VERSION, Plain("1.0"));
    ValuesAppendThree([version], TypedFields(kind, mimeType), TaggedFields(kind, filename, contentId), name);
    ValuesOne(version, name);
  }

  /** Every part gets exactly one Content-Type, carrying the given MIME type, with a
      `charset=UTF-8` parameter exactly for the text kinds. */
  lemma ContentTypeField(kind: Kind, mimeType: string, filename: string, contentId: string)
    ensures Values(ConstructionFields(kind, mimeType, filename, contentId), CONTENT_TYPE)
         == [if kind.IsText() then WithParam(mimeType, "charset", "UTF-8") else Plain(mimeType)]
  {
    DistinctNames();
    PieceValues(kind, mimeType, filename, contentId, CONTENT_TYPE);
    var typed := TypedFields(kind, mimeType);
    var tagged := TaggedFields(kind, filename, contentId);
    if |typed| == 2 { ValuesTwo(typed[0], typed[1], CONTENT_TYPE); } else { ValuesOne(typed[0], CONTENT_TYPE); }
    if tagged != [] { ValuesTwo(tagged[0], tagged[1], CONTENT_TYPE); }
  }

  /** The text kinds get `Content-Transfer-Encoding: quoted-printable`; the other kinds get no
      transfer-encoding header at all (the binary kinds included, see BinaryDispositionQuirk). */
  lemma TransferEncodingField(kind: Kind, mimeType: string, filename: string, contentId: string)
    ensures Values(ConstructionFields(kind, mimeType, filename, contentId), CONTENT_TRANSFER_ENCODING)
         == if kind.IsText() then [Plain("quoted-printable")] else []
  {
    DistinctNames();
    PieceValues(kind, mimeType, filename, contentId, CONTENT_TRANSFER_ENCODING);
    var typed := TypedFields(kind, mimeType);
    var tagged := TaggedFields(kind, filename, contentId);
    if |typed| == 2 {
      ValuesTwo(typed[0], typed[1], CONTENT_TRANSFER_ENCODING);
    } else {
      ValuesOne(typed[0], CONTENT_TRANSFER_ENCODING);
    }
    if tagged != [] { ValuesTwo(tagged[0], tagged[1], CONTENT_TRANSFER_ENCODING); }
  }

  /** A Content-ID `<cid>` header exactly for the attachment-like kinds. */
  lemma ContentIdField(kind: Kind, mimeType: string, filename: string, contentId: string)
    ensures Values(ConstructionFields(kind, mimeType, filename, contentId), CONTENT_ID)
         == if kind.IsAttachmentLike() then [Plain("<" + contentId + ">")] else []
  {
    DistinctNames();
    PieceValues(kind, mimeType, filename, contentId, CONTENT_ID);
    var typed := TypedFields(kind, mimeType);
    var tagged := TaggedFields(kind, filename, contentId);
    if |typed| == 2 { ValuesTwo(typed[0], typed[1], CONTENT_ID); } else { ValuesOne(typed[0], CONTENT_ID); }
    if tagged != [] { ValuesTwo(tagged[0], tagged[1], CONTENT_ID); }
  }

  /** The Content-Disposition fields: "attachment" for the two attachment kinds, "inline" for
      the two inline kinds, always with the filename; body and multipart parts get none. */
  lemma DispositionFields(kind: Kind, mimeType: string, filename: string, contentId: string)
    ensures Values(ConstructionFields(kind, mimeType, filename, contentId), CONTENT_DISPOSITION)
         == (if kind.IsBinary() then [Plain("base64")] else [])
          + (if kind.IsAttachmentLike() then [WithParam(DispositionType(kind), "filename", filename)] else [])
    ensures kind.IsAttachmentLike() ==>
      (DispositionType(kind) == "attachment" <==> kind.Attachment? || kind.BinaryAttachment?)
  {
    DistinctNames();
    PieceValues(kind, mimeType, filename, contentId, CONTENT_DISPOSITION);
    var typed := TypedFields(kind, mimeType);
    var tagged := TaggedFields(kind, filename, contentId);
    if |typed| == 2 {
      ValuesTwo(typed[0], typed[1], CONTENT_DISPOSITION);
    } else {
      ValuesOne(typed[0], CONTENT_DISPOSITION);
    }
    if tagged != [] { ValuesTwo(tagged[0], tagged[1], CONTENT_DISPOSITION); }
  }

  /** A freshly constructed part has no Date field, so the first `_apply_headers` on it always
      adds one. */
  lemma NoDateField(kind: Kind, mimeType: string, filename: string, contentId: string)
    ensures Values(ConstructionFields(kind, mimeType, filename, contentId), DATE) == []
  {
    DistinctNames();
    PieceValues(kind, mimeType, filename, contentId, DATE);
    var typed := TypedFields(kind, mimeType);
    var tagged := TaggedFields(kind, filename, contentId);
    if |typed| == 2 { ValuesTwo(typed[0], typed[1], DATE); } else { ValuesOne(typed[0], DATE); }
    if tagged != [] { ValuesTwo(tagged[0], tagged[1], DATE); }
  }

  /** A binary part gets `Content-Disposition: base64` where a transfer-encoding header was
      meant: it has no Content-Transfer-Encoding and two Content-Disposition fields. */
  lemma BinaryDispositionQuirk(kind: Kind, mimeType: string, filename: string, contentId: string)
    requires kind.IsBinary()
    ensures Values(ConstructionFields(kind, mimeType, filename, contentId), CONTENT_TRANSFER_ENCODING) == []
    ensures Values(ConstructionFields(kind, mimeType, filename, contentId), CONTENT_DISPOSITION)
         == [Plain("base64"), WithParam(DispositionType(kind), "filename", filename)]
  {
    TransferEncodingField(kind, mimeType, filename, contentId);
    DispositionFields(kind, mimeType, filename, contentId);
  }

  /** `set_param` on a text part: the Content-Type is deleted and the transfer encoding
      that followed it moves up. */
  lemma CharsetMovesContentType(mimeType: string)
    ensures Without([Field(MIME_VERSION, Plain("1.0")), Field(CONTENT_TYPE, Plain(mimeType)),
                     Field(CONTENT_TRANSFER_ENCODING, Plain("quoted-printable"))], CONTENT_TYPE)
         == [Field(MIME_VERSION, Plain("1.0")), Field(CONTENT_TRANSFER_ENCODING, Plain("quoted-printable"))]
  {
    DistinctNames();
    var fields := [Field(MIME_VERSION, Plain("1.0")), Field(CONTENT_TYPE, Plain(mimeType)),
                   Field(CONTENT_TRANSFER_ENCODING, Plain("quoted-printable"))];
    assert Without([fields[2]], CONTENT_TYPE) == [fields[2]] by {
      assert [fields[2]][1..] == [];
    }
    assert Without(fields[1..], CONTENT_TYPE) == [fields[2]] by {
      assert fields[1..][1..] == [fields[2]];
    }
  }

  class Part {
    const kind: Kind
    const mimeType: string
    const contentId: Option<string>
    const payload: Option<Payload>
    /** The inherited header list; `add_header` and `msg[name] = v` append to it. */
    var headers: seq<Field>
    /** The parts `attach` has added (multipart parts only). */
    var children: seq<Part>

    /** What construction guarantees of every part: a content id exactly for the
        attachment-like kinds, and a payload exactly for the non-multipart kinds. */
    predicate Valid() {
      (contentId.Some? <==> kind.IsAttachmentLike()) && (payload.None? <==> kind.Multipart?)
    }

    /** `Part(kind, mimetype, data, filename)` on arguments it accepts; `identity` stands for
        `id(self)`. */
    constructor (kind: Kind, mimeType: string, data: Option<Value>, filename: Option<Value>, identity: nat)
      requires ConstructionError(kind, mimeType, data, filename).None?
      ensures Valid()
      ensures this.kind == kind && this.mimeType == mimeType
      ensures contentId == if kind.IsAttachmentLike() then Some(ContentIdFor(identity)) else None
      ensures payload == PayloadFor(kind, data)
      ensures headers == ConstructionFields(kind, mimeType, FilenameOf(filename), ContentIdFor(identity))
      ensures children == []
    {
      this.kind := kind;
      this.mimeType := mimeType;
      this.payload := PayloadFor(kind, data);
      this.contentId := if kind.IsAttachmentLike() then Some(ContentIdFor(identity)) else None;
      headers := [];
      children := [];
      new;
      SetType();
      SetEncoding();
      if kind.IsAttachmentLike() {
        Tag(filename.value.text);
      } else {
        assert headers == headers + TaggedFields(kind, FilenameOf(filename), ContentIdFor(identity));
      }
    }

    /** The kind-dependent part of construction: a binary kind gets a Content-Disposition
        of `base64`, a text kind a quoted-printable transfer encoding and the charset. */
    method SetEncoding()
      requires headers == [Field(MIME_VERSION, Plain("1.0")), Field(CONTENT_TYPE, Plain(mimeType))]
      modifies this`headers
      ensures headers == [Field(MIME_VERSION, Plain("1.0"))] + TypedFields(kind, mimeType)
    {
      if kind.IsBinary() {
        AddHeader(Field(CONTENT_DISPOSITION, Plain("base64")));
      } else if kind.IsText() {
        SetQuotedPrintable();
      }
    }

    /** The text-kind branch: a quoted-printable transfer encoding, then `set_param` adds the
        UTF-8 charset to the Content-Type. */
    method SetQuotedPrintable()
      requires headers == [Field(MIME_VERSION, Plain("1.0")), Field(CONTENT_TYPE, Plain(mimeType))]
      modifies this`headers
      ensures headers == [Field(MIME_VERSION, Plain("1.0")),
                          Field(CONTENT_TRANSFER_ENCODING, Plain("quoted-printable")),
                          Field(CONTENT_TYPE, WithParam(mimeType, "charset", "UTF-8"))]
    {
      AddHeader(Field(CONTENT_TRANSFER_ENCODING, Plain("quoted-printable")));
      CharsetMovesContentType(mimeType);
      SetCharset();
    }

    /** The attachment-like part of construction: the Content-ID and the Content-Disposition
        with the filename. */
    method Tag(filename: string)
      requires kind.IsAttachmentLike() && contentId.Some?
      modifies this`headers
      ensures headers == old(headers) + TaggedFields(kind, filename, contentId.value)
    {
      AddHeader(Field(CONTENT_ID, Plain("<" + contentId.value + ">")));
      AddHeader(Field(CONTENT_DISPOSITION, WithParam(DispositionType(kind), "filename", filename)));
    }

    /** `set_type(mimeType)` on a part without headers: a MIME-Version field, then the
        Content-Type. */
    method SetType()
      requires headers == []
      modifies this`headers
      ensures headers == [Field(MIME_VERSION, Plain("1.0")), Field(CONTENT_TYPE, Plain(mimeType))]
    {
      headers := [Field(MIME_VERSION, Plain("1.0"))];
      headers := headers + [Field(CONTENT_TYPE, Plain(mimeType))];
    }

    /** `add_header(name, value)` and `msg[name] = value`: append a field. */
    method AddHeader(field: Field)
      modifies this`headers
      ensures headers == old(headers) + [field]
    {
      headers := headers + [field];
    }

    /** `set_param("charset", "UTF-8", "Content-Type")`: the Content-Type field is deleted and
        appended again with the parameter. */
    method SetCharset()
      modifies this`headers
      ensures headers == Without(old(headers), CONTENT_TYPE) + [Field(CONTENT_TYPE, WithParam(mimeType, "charset", "UTF-8"))]
    {
      headers := Without(headers, CONTENT_TYPE) + [Field(CONTENT_TYPE, WithParam(mimeType, "charset", "UTF-8"))];
    }

    /** `Part(kind, mimetype, data, filename)`, raising `ValueError` on a malformed MIME type
        and `TypeError` on unsupported data or filename. */
    static method Create(kind: Kind, mimeType: string, data: Option<Value>, filename: Option<Value>, identity: nat)
      returns (r: Result<Part, Error>)
      ensures r.Failure? <==> ConstructionError(kind, mimeType, data, filename).Some?
      ensures r.Failure? ==> r.error == ConstructionError(kind, mimeType, data, filename).value
      ensures r.Success? ==>
        && fresh(r.value) && r.value.Valid()
        && r.value.kind == kind && r.value.mimeType == mimeType
        && r.value.contentId == (if kind.IsAttachmentLike() then Some(ContentIdFor(identity)) else None)
        && r.value.payload == PayloadFor(kind, data)
        && r.value.headers == ConstructionFields(kind, mimeType, FilenameOf(filename), ContentIdFor(identity))
        && r.value.children == []
    {
      var e := ConstructionError(kind, mimeType, data, filename);
      if e.Some? {
        return Failure(e.value);
      }
      var part := new Part(kind, mimeType, data, filename, identity);
      return Success(part);
    }

    /** `Part(Part.TYPE_MULTIPART, mimetype)`: a container, which takes no data. */
    static method Container(mimeType: string) returns (p: Part)
      requires IsMimeType(mimeType)
      ensures fresh(p) && p.Valid() && p.kind == Multipart && p.mimeType == mimeType
      ensures p.headers == ContainerFields(mimeType) && p.children == []
    {
      p := new Part(Multipart, mimeType, None, None, 0);
    }

    /** `get_content_id()`: set exactly for the attachment-like kinds. */
    function GetContentId(): (cid: Option<string>)
      requires Valid()
      ensures cid.Some? <==> kind.IsAttachmentLike()
    {
      contentId
    }

    /** `get_part_type()`: the kind given at construction, which decided whether the part has
        a payload and a content id. */
    function GetPartType(): (k: Kind)
      requires Valid()
      ensures k.Multipart? <==> payload.None?
      ensures k.IsAttachmentLike() <==> contentId.Some?
    {
      kind
    }

    /** `attach(child)`: the library refuses it on a part whose payload is a string. */
    method Attach(child: Part)
      requires payload.None?
      modifies this`children
      ensures children == old(children) + [child]
    {
      children := children + [child];
    }
  }

  /** A text inline part lists its headers in the order the library serialises them. */
  lemma TextInlineFieldOrder(mimeType: string, filename: string, contentId: string)
    ensures var f := ConstructionFields(Inline, mimeType, filename, contentId);
      && |f| == 5
      && f[0].name == MIME_VERSION && f[1].name == CONTENT_TRANSFER_ENCODING && f[2].name == CONTENT_TYPE
      && f[3].name == CONTENT_ID && f[4] == Field(CONTENT_DISPOSITION, WithParam("inline", "filename", filename))
  {
  }
}

=== FILE: text.dfy ===
/** The string primitives the composer relies on, written out: Python's `str.strip()`,
    ASCII case mapping for header names, decimal formatting of integers and `", ".join`. */
module Text {

  /** Python's `str.isspace()` set: the characters `str.strip()` removes from both ends. */
  predicate IsWhitespace(c: char) {
    var n := c as int;
    (0x09 <= n <= 0x0D) || (0x1C <= n <= 0x20) || n == 0x85 || n == 0xA0 || n == 0x1680
    || (0x2000 <= n <= 0x200A) || n == 0x2028 || n == 0x2029 || n == 0x202F
    || n == 0x205F || n == 0x3000
  }

  /** `s.lstrip()`: the longest suffix of `s` that does not start with whitespace. */
  function StripLeft(s: string): (r: string)
    ensures |r| <= |s| && r == s[|s| - |r|..]
    ensures r == [] || !IsWhitespace(r[0])
    ensures forall i :: 0 <= i < |s| - |r| ==> IsWhitespace(s[i])
  {
    if |s| > 0 && IsWhitespace(s[0]) then StripLeft(s[1..]) else s
  }

  /** `s.rstrip()`: the longest prefix of `s` that does not end with whitespace. */
  function StripRight(s: string): (r: string)
    ensures |r| <= |s| && r == s[..|r|]
    ensures r == [] || !IsWhitespace(r[|r| - 1])
    ensures forall i :: |r| <= i < |s| ==> IsWhitespace(s[i])
  {
    if |s| > 0 && IsWhitespace(s[|s| - 1]) then StripRight(s[..|s| - 1]) else s
  }

  /** `s.strip()`. */
  function Strip(s: string): (r: string)
    ensures |r| <= |s|
    ensures IsStripped(r)
    ensures exists i, j :: 0 <= i <= j <= |s| && r == s[i..j] && IsBlank(s[..i]) && IsBlank(s[j..])
  {
    var t := StripLeft(s);
    var r := StripRight(t);
    var i := |s| - |t|;
    assert IsBlank(s[..i]) by {
      forall k | 0 <= k < i ensures IsWhitespace(s[..i][k]) {
        assert s[..i][k] == s[k];
      }
    }
    var j := i + |r|;
    assert IsBlank(s[j..]) by {
      forall k | 0 <= k < |s| - j ensures IsWhitespace(s[j..][k]) {
        assert s[j..][k] == t[|r| + k];
      }
    }
    assert r == s[i..j];
    r
  }

  /** A string `strip()` leaves as it is: no whitespace at either end. */
  predicate IsStripped(s: string) {
    s == [] || (!IsWhitespace(s[0]) && !IsWhitespace(s[|s| - 1]))
  }

  /** The strings `strip()` returns are exactly the stripped ones. */
  lemma StrippedIff(s: string)
    ensures Strip(s) == s <==> IsStripped(s)
  {
    if IsStripped(s) && s != [] {
      assert StripLeft(s) == s;
      assert StripRight(s) == s;
    }
  }

  /** A string of whitespace only. */
  predicate IsBlank(s: string) {
    forall i :: 0 <= i < |s| ==> IsWhitespace(s[i])
  }

  /** Stripping leaves nothing exactly when the string is whitespace only. */
  lemma {:induction false} StripBlankIff(s: string)
    ensures Strip(s) == [] <==> IsBlank(s)
  {
    var t := StripLeft(s);
    if Strip(s) != [] {
      assert t[0] == s[|s| - |t|];
    }
  }

  /** Stripping twice is stripping once. */
  lemma {:induction false} StripIdempotent(s: string)
    ensures Strip(Strip(s)) == Strip(s)
  {
    var r := Strip(s);
    if r != [] {
      assert StripLeft(r) == r;
      assert StripRight(r) == r;
    }
  }

  function UpperChar(c: char): char {
    if 'a' <= c <= 'z' then (c as int - 32) as char else c
  }

  function LowerChar(c: char): char {
    if 'A' <= c <= 'Z' then (c as int + 32) as char else c
  }

  /** `s.upper()` on the ASCII letters. */
  function Upper(s: string): (r: string)
    ensures |r| == |s|
  {
    seq(|s|, i requires 0 <= i < |s| => UpperChar(s[i]))
  }

  /** `s.lower()` on the ASCII letters. */
  function Lower(s: string): (r: string)
    ensures |r| == |s|
  {
    seq(|s|, i requires 0 <= i < |s| => LowerChar(s[i]))
  }

  /** Upper-casing an upper-cased name changes nothing. */
  lemma UpperIdempotent(s: string)
    ensures Upper(Upper(s)) == Upper(s)
  {
  }

  predicate IsDigit(c: char) {
    '0' <= c <= '9'
  }

  function DigitChar(d: nat): (c: char)
    requires d < 10
    ensures IsDigit(c) && c as int - '0' as int == d
  {
    ('0' as int + d) as char
  }

  /** `"{0:d}".format(n)` for a non-negative integer. */
  function Decimal(n: nat): (r: string)
    ensures |r| > 0 && forall i :: 0 <= i < |r| ==> IsDigit(r[i])
    ensures r[0] == '0' ==> n == 0
  {
    if n < 10 then [DigitChar(n)] else Decimal(n / 10) + [DigitChar(n % 10)]
  }

  /** The number a string of decimal digits denotes. */
  function DecimalValue(s: string): nat
    requires forall i :: 0 <= i < |s| ==> IsDigit(s[i])
  {
    if s == [] then 0
    else
      assert IsDigit(s[|s| - 1]);
      DecimalValue(s[..|s| - 1]) * 10 + (s[|s| - 1] as int - '0' as int)
  }

  lemma {:induction false} DecimalRoundTrip(n: nat)
    ensures DecimalValue(Decimal(n)) == n
  {
    if n >= 10 {
      var s := Decimal(n);
      assert s[..|s| - 1] == Decimal(n / 10);
      DecimalRoundTrip(n / 10);
    }
  }

  /** Distinct numbers format to distinct decimal strings. */
  lemma DecimalInjective(a: nat, b: nat)
    ensures Decimal(a) == Decimal(b) ==> a == b
  {
    DecimalRoundTrip(a);
    DecimalRoundTrip(b);
  }

  /** Python's `", ".join(items)`. */
  function JoinComma(items: seq<string>): (r: string)
    ensures |items| > 0 ==> items[0] <= r
  {
    if |items| == 0 then ""
    else if |items| == 1 then items[0]
    else items[0] + ", " + JoinComma(items[1..])
  }

  /** `s.count(c)` for a one-character `c`. */
  function Count(s: string, c: char): (n: nat)
    ensures n <= |s|
    ensures n == 0 <==> c !in s
  {
    if s == [] then 0 else (if s[0] == c then 1 else 0) + Count(s[1..], c)
  }

  /** A string with one `c` between two strings free of it counts `c` once. */
  lemma {:induction false} CountOne(a: string, c: char, b: string)
    requires c !in a && c !in b
    ensures Count(a + [c] + b, c) == 1
  {
    if a == [] {
      assert a + [c] + b == [c] + b && ([c] + b)[1..] == b;
    } else {
      assert (a + [c] + b)[1..] == a[1..] + [c] + b;
      CountOne(a[1..], c, b);
    }
  }

  /** Where item `k` starts in `", ".join(items)`: the items before it and one separator
      after each of them. */
  function Offset(items: seq<string>, k: nat): nat
    requires k <= |items|
  {
    if k == 0 then 0 else |items[0]| + 2 + Offset(items[1..], k - 1)
  }

  /** `", ".join(items)` holds every item at its offset, ", " before every item but the first,
      and nothing else. */
  lemma JoinCommaLayout(items: seq<string>)
    ensures |items| > 0 ==> |JoinComma(items)| + 2 == Offset(items, |items|)
    ensures forall k :: 0 <= k < |items| ==>
      Offset(items, k) + |items[k]| <= |JoinComma(items)|
      && JoinComma(items)[Offset(items, k)..Offset(items, k) + |items[k]|] == items[k]
    ensures forall k :: 0 < k < |items| ==>
      2 <= Offset(items, k) <= |JoinComma(items)| && JoinComma(items)[Offset(items, k) - 2..Offset(items, k)] == ", "
  {
    if |items| > 0 {
      JoinCommaLength(items);
    }
    forall k | 0 <= k < |items|
      ensures Offset(items, k) + |items[k]| <= |JoinComma(items)|
      ensures JoinComma(items)[Offset(items, k)..Offset(items, k) + |items[k]|] == items[k]
    {
      JoinCommaItem(items, k);
    }
    forall k | 0 < k < |items|
      ensures 2 <= Offset(items, k) <= |JoinComma(items)|
      ensures JoinComma(items)[Offset(items, k) - 2..Offset(items, k)] == ", "
    {
      JoinCommaSeparator(items, k);
    }
  }

  lemma {:induction false} JoinCommaLength(items: seq<string>)
    requires |items| > 0
    ensures |JoinComma(items)| + 2 == Offset(items, |items|)
  {
    if |items| == 1 {
      assert Offset(items, 1) == |items[0]| + 2 + Offset(items[1..], 0);
    } else {
      JoinCommaLength(items[1..]);
    }
  }

  lemma {:induction false} JoinCommaItem(items: seq<string>, k: nat)
    requires k < |items|
    ensures Offset(items, k) + |items[k]| <= |JoinComma(items)|
    ensures JoinComma(items)[Offset(items, k)..Offset(items, k) + |items[k]|] == items[k]
  {
    if |items| > 1 {
      var tail := JoinComma(items[1..]);
      var h := |items[0]| + 2;
      if k > 0 {
        JoinCommaItem(items[1..], k - 1);
        var o := Offset(items[1..], k - 1);
        assert (items[0] + ", " + tail)[h + o..h + o + |items[k]|] == tail[o..o + |items[k]|];
      }
    }
  }

  lemma {:induction false} JoinCommaSeparator(items: seq<string>, k: nat)
    requires 0 < k < |items|
    ensures 2 <= Offset(items, k) <= |JoinComma(items)|
    ensures JoinComma(items)[Offset(items, k) - 2..Offset(items, k)] == ", "
  {
    var tail := JoinComma(items[1..]);
    var h := |items[0]| + 2;
    if k == 1 {
      assert Offset(items, 1) == h + Offset(items[1..], 0);
      assert (items[0] + ", " + tail)[h - 2..h] == ", ";
    } else {
      JoinCommaSeparator(items[1..], k - 1);
      var o := Offset(items[1..], k - 1);
      assert (items[0] + ", " + tail)[h + o - 2..h + o] == tail[o - 2..o];
    }
  }

  /** A string seen as the sequence of its one-character strings, which is how `join`
      iterates over a `str` argument. */
  function Characters(s: string): (r: seq<string>)
    ensures |r| == |s|
  {
    seq(|s|, i requires 0 <= i < |s| => [s[i]])
  }

  /** Joining the characters of a string puts ", " between every two of them. */
  lemma {:induction false} JoinCharactersLength(s: string)
    requires |s| > 0
    ensures |JoinComma(Characters(s))| == 3 * |s| - 2
  {
    if |s| > 1 {
      assert Characters(s)[1..] == Characters(s[1..]);
      JoinCharactersLength(s[1..]);
    }
  }
}

=== FILE: wrappers.dfy ===
/** Failure-compatible wrappers used by the e-mail model: an optional value, a value-or-error
    result, and a pass-or-error outcome for operations that only raise. */
module Wrappers {

  datatype Option<+T> = None | Some(value: T)

  datatype Result<+R, +E> = Success(value: R) | Failure(error: E)

  datatype Outcome<+E> = Pass | Fail(error: E)

  /** The two Python exception classes the composer raises, with their messages. */
  datatype Error = TypeError(message: string) | ValueError(message: string)
}
